=== FILE: README.md ===
# crossplane-fn-irsa in Dafny

This project models the core of crossplane-fn-irsa, a Crossplane composition
function that prepares IAM Roles for Service Accounts (IRSA) for a cluster.
Given a composite resource, it:

- finds the Route 53 hosted zone that belongs to the cluster's domain and
  writes its id into the desired composite;
- builds the OpenID Connect discovery document. Outside China the issuer is
  the domain, served through CloudFront. In the China partition it is the S3
  bucket on the public S3 endpoint;
- builds the JSON Web Key Set for the service-account signing key. The key
  id is the unpadded base64url form of the SHA-256 digest of the DER-encoded
  public key;
- reports the first step that fails as a Fatal result.

It also models the two discoveries in `aws.go` that `RunFunction` does not
call: the CloudFront distribution import and the IAM OpenID Connect provider
import.

Modules, in dependency order:

| module | file | what it models |
|---|---|---|
| `Errors` | errors.dfy | Go error values, kept structural (`errors.New`, `Wrap`, `Wrapf`, `fmt.Errorf` with `%v`, …), plus `Option` and `Result` |
| `GoStrings` | strings.dfy | `strings.HasPrefix`, `HasSuffix`, `TrimPrefix` and `TrimSuffix` |
| `Base64Url` | base64url.dfy | `base64.RawURLEncoding`: the unpadded encoding of section 5 of RFC 4648, with the canonical decoder as its inverse |
| `Aws` | aws.dfy | the list-then-filter matchers for hosted zones, distributions and OIDC providers, and the action each one takes |
| `S3` | s3.dfy | the partition test, the discovery document, the key id and the key set |
| `Composite` | composite.dfy | the desired composite as a map from field path to value, and the field-path write |
| `Fn` | fn.dfy | `RunFunction` as a fold over its eight steps that stops at the first step that does not carry on |

The environment is passed in as values:

- **AWS API answers:** each listing is a `Listing` value (items in listing
  order, or the configuration or listing error). For every OIDC provider the
  model also takes the answer of its detail fetch. A `Listing` is a single
  page: `ListHostedZones` (aws.go:158) and `ListDistributions` (aws.go:215)
  are called once and `IsTruncated`/`Marker` are never followed, so a hosted
  zone or distribution beyond the first page is never seen, and the model
  inherits that.
- **Kubernetes secret read:** `Env.serviceAccountSecret`.
- **Cryptography:** `S3.Crypto` holds `x509.MarshalPKIXPublicKey` and
  SHA-256 as given functions.
- **Field-path library:** the set of paths it refuses to write, and the map
  of string fields of the observed composite.
- **Conversion to the response:** the error of `composed.ToResponse`, if any.

`RunFunction` has two revisions, selected by `Fn.Revision`:

- `AsWritten` follows the code as it stands.
- `KeyErrorChecked` reports a failed secret fetch as Fatal, which is what the
  code evidently intends (see Findings).

Points where the code does something other than its surroundings suggest,
modelled as the code has them:

- **Domain reference:** the domain is always resolved, and a missing one is
  Fatal, although the input type marks `domainRef` optional
  (pkg/input/v1beta1/input.go:28-29).
- **Error message:** when the domain reference does not resolve, the message
  names the region reference (fn.go:65).
- **Key algorithm:** the key set's `alg` is the empty string, the zero value
  of `jose.SignatureAlgorithm`, although the discovery document advertises
  RS256.
- **OIDC provider matching:** a provider matches on exact URL equality with
  `https://` + domain. A first match whose ARN is empty is treated as no match.
- **Bucket name:** the discovery document is built from the desired
  composite's metadata name (fn.go:75), not from `s3BucketNameRef`.

## Model

| member | source | states |
|---|---|---|
| GoStrings.TrimSuffix | aws.go:166 | with the suffix present, the result followed by the suffix is the input; otherwise the input is unchanged |
| GoStrings.TrimPrefix | aws.go:184 | with the prefix present, the prefix followed by the result is the input; otherwise the input is unchanged |
| Base64Url.Encode | s3.go:88 | the encoding uses only URL-safe characters, and its length is between 4n/3 and (4n+2)/3 for n bytes (no padding) |
| Base64Url.DecodeEncode | s3.go:88 | decoding an encoding gives back the original bytes |
| Base64Url.EncodeDecode | s3.go:88 | every text the decoder accepts is the encoding of what it decodes to |
| Base64Url.EncodeInjective | s3.go:88 | two byte strings have the same encoding exactly when they are equal |
| Base64Url.OctetsSextets | s3.go:88 | regrouping 6-bit values back into bytes recovers every byte string |
| Base64Url.SextetsOctets | s3.go:88 | every value sequence the regrouping accepts is the 6-bit grouping of its result |
| Base64Url.RfcVectorsShort | s3.go:88 | the encoder gives the unpadded URL-alphabet forms of the section 10 test vectors of RFC 4648 for "", "f", "fo" and "foo" |
| Base64Url.RfcVectorFoob | s3.go:88 | "foob" encodes to "Zm9vYg", the section 10 vector of RFC 4648 without its padding |
| Base64Url.RfcVectorFooba | s3.go:88 | "fooba" encodes to "Zm9vYmE", the section 10 vector of RFC 4648 without its padding |
| Base64Url.RfcVectorFoobar | s3.go:88 | "foobar" encodes to "Zm9vYmFy", the section 10 vector of RFC 4648 |
| Base64Url.UrlAlphabetVector | s3.go:88 | the values 62 and 63 are written '-' and '_' (section 5 of RFC 4648), as in the bytes FB FF encoding to "-_8" |
| Aws.ZoneMatchesIff | aws.go:165-167 | a zone matches exactly when its name is the domain plus one trailing dot, or is the domain itself when the domain has no trailing dot |
| Aws.MatchingZones | aws.go:164-170 | the matches are zones of the listing that match the domain, and every matching zone of the listing is among them |
| Aws.MatchingZonesMultiset | aws.go:164-170 | the filter keeps every copy of a matching zone and nothing else, counted with multiplicity |
| Aws.DiscoverHostedZone | aws.go:143-188 | a configuration failure is wrapped with the region, and a listing failure is passed through. Zero matches and several matches give their two errors. Exactly one match patches `patchTo` with that zone's id, minus the `/hostedzone/` prefix |
| Aws.HostedZoneOrderIrrelevant | aws.go:164-188 | reordering the listing never changes the outcome |
| Aws.SingleZoneScenario | aws.go:164-188 | one zone named `example.com.` with id `/hostedzone/Z0123` patches `Z0123` |
| Aws.DuplicateZoneScenario | aws.go:179-182 | two zones named `example.com.` are an ambiguity error, whatever their ids |
| Aws.AliasMatches | aws.go:223-227 | the inner loop appends the distribution once per alias equal to the domain and nothing else |
| Aws.MatchingDistributions | aws.go:221-228 | the match list has one entry per matching alias across all distributions. Each entry is a listed distribution that carries the domain, and every listed distribution that carries the domain is in it |
| Aws.AliasMatchesMultiset | aws.go:223-227 | the inner loop adds this distribution as many times as it has aliases equal to the domain, and adds no other distribution |
| Aws.MatchingDistributionsHits | aws.go:221-228 | a distribution's count in the match list is the sum, over the listing, of its aliases equal to the domain at each place it is listed |
| Aws.MatchingDistributionsMultiset | aws.go:221-228 | each distribution appears in the match list (number of times it is listed) × (number of its aliases equal to the domain) times |
| Aws.ImportDistribution | aws.go:200-246 | configuration and listing failures abort. No matching alias is a silent skip, and more than one is an ambiguity error. Exactly one writes the id of a distribution carrying the domain to the distribution-id status path |
| Aws.AliasHitsZero | aws.go:232-235 | the alias count is zero exactly when no distribution lists the domain |
| Aws.AliasHitsAtLeast | aws.go:221-228 | every distribution contributes all of its own occurrences of the domain to the count |
| Aws.DistributionSkipIff | aws.go:232-235 | the import is skipped exactly when no distribution lists the domain among its aliases |
| Aws.RepeatedAliasIsAmbiguous | aws.go:221-240 | a single distribution that lists the domain twice is already reported as multiple distributions |
| Aws.FirstMatch | aws.go:279-294 | the loop stops at a matching provider, or at the end of the listing, and no earlier provider matches |
| Aws.FirstMatchUnique | aws.go:279-294 | the stopping index is the only index with those two properties |
| Aws.ImportOpenIdProvider | aws.go:258-304 | configuration and listing failures abort, and anything else never does. No matching provider is a skip. A patch writes the non-empty ARN of the first matching provider to the provider-ARN status path. When the first matching provider has a non-empty ARN it is patched, and when that ARN is empty the call is a skip |
| Aws.LaterProvidersIgnored | aws.go:290-293 | providers listed after the first match never affect the outcome |
| Aws.FetchFailureInvisible | aws.go:285-288 | a provider whose detail fetch fails behaves as if it had not been listed |
| Aws.EmptyArnFirstMatchSkips | aws.go:298-301 | a first match with an empty ARN ends the search, and the import is then skipped even though a later provider matches |
| S3.IsChina | s3.go:33-35 | a region is in the China partition exactly when it starts with `cn-` |
| S3.AWSEndpoint | s3.go:37-43 | the service domain is `amazonaws.com.cn` in the China partition and `amazonaws.com` elsewhere |
| S3.GenerateDiscoveryFile | s3.go:45-62 | the fixed fields are exact. The issuer is `https://` + domain outside China, and the bucket on `s3.<region>.amazonaws.com.cn` inside it. The JWKS URI is always the issuer + `/keys.json` |
| S3.BucketUnusedOutsideChina | s3.go:54-57 | outside China the bucket name does not affect the document |
| S3.DomainUnusedInChina | s3.go:58-62 | in China the domain does not affect the document |
| S3.ChinaIssuerScenario | s3.go:58-62 | region `cn-northwest-1` with bucket `my-bucket` gives issuer `https://s3.cn-northwest-1.amazonaws.com.cn/my-bucket` |
| S3.PartitionScenarios | s3.go:54-62 | `cn-north-1` selects the object-storage issuer and `us-east-1` the CloudFront one |
| S3.DigestOfKey | s3.go:78-91 | fails exactly when DER marshalling fails, with that error's text in the message (formatted with `%v`, not wrapped). Otherwise the id is 43 URL-safe characters: the unpadded URL-alphabet Base64 encoding of the SHA-256 digest of the DER bytes, which decodes back to that digest |
| S3.KeyIdIdentifiesDigest | s3.go:84-88 | two keys get the same id exactly when their DER encodings have the same digest |
| S3.GenerateKeysFile | s3.go:93-107 | fails exactly when the key id cannot be computed, with that error. Otherwise the set holds exactly one key: the public key, use `sig`, empty algorithm, and the key id of the digest |
| S3.KeySetPublicOnly | s3.go:102-107 | the key set depends only on the public half of the key |
| Composite.Write | s3.go:115 | the write fails exactly when the path is refused. On success the path holds the value, and every other path keeps its old value |
| Fn.Exec | fn.go:51-90 | no step changes the spec, the observed composite or the composite's identity. Only ToResponse returns an error, wrapped into its Fatal message. Only GenerateKeysFile panics, and only with a nil key |
| Fn.ResolveFailures | fn.go:51-67 | a failed region, provider-config or domain step reports the missing reference wrapped in that step's text. The domain step's text names the region reference |
| Fn.ZoneFailure | fn.go:70-72 | a failed hosted-zone step reports the discovery's own error, or the refused patch, wrapped with the domain |
| Fn.DiscoveryFailure | fn.go:75-77 | a failed discovery-file step reports the refused patch wrapped with the domain |
| Fn.KeyFailure | fn.go:80 | the signing-key step stops a run only when its error is checked and the secret read failed. It then reports the read error wrapped with the domain |
| Fn.KeysFileFailure | fn.go:82-84 | a failed keys-file step had a key, and reports either the key-id error or the refused patch wrapped with the domain |
| Fn.Fold | fn.go:51-90 | the steps run are a prefix of the step list, all of it when the run completes |
| Fn.FoldEnding | fn.go:51-90 | a run that stops or crashes does so at the last step it ran, with that step's error |
| Fn.FoldStopsEarly | fn.go:51-90 | once a step fails, no later step runs |
| Fn.FoldGoesOn | fn.go:51-90 | a completed first part hands its state to the rest of the steps |
| Fn.FoldKeepsIdentity | fn.go:51-90 | running any steps keeps the spec, the observed composite, the name and the namespace |
| Fn.Run | fn.go:22-93 | reading the observed composite or the input, or a missing spec, fails with its own message before any step runs. The steps run are a prefix of the eight. A Fatal result hands back the request's desired composite unchanged. Only a ToResponse failure also returns an error. A panic happens only at GenerateKeysFile |
| Fn.ResolveStepsSucceed | fn.go:51-67 | the three resolving steps complete exactly when all three references are present, and then record their values |
| Fn.PatchStepsSucceed | fn.go:70-78 | the hosted-zone and discovery-file steps complete exactly when one zone matches and neither write is refused, leaving both written |
| Fn.HeadSucceeds | fn.go:51-78 | the first five steps complete exactly when the references resolve, one zone matches and neither write is refused. The desired composite then holds the zone id and the discovery document |
| Fn.TailSucceeds | fn.go:80-90 | the last three steps complete exactly when the secret is read, the key set is built and written, and the response is converted. The keys file is then written |
| Fn.FoldCompletes | fn.go:51-90 | all eight steps complete exactly when both halves do, leaving the three patches applied |
| Fn.RunCompletes | fn.go:22-93 | under either revision, a run returns without a Fatal result exactly when every step carries on. It then hands back the request's desired composite with exactly the zone id, the discovery document and the key set written |
| Fn.DomainFailureIsFatal | fn.go:64-67 | a missing domain reference stops the run after three steps, with a message that names the region reference |
| Fn.FoldStopsWithStepError | fn.go:51-90 | steps that stop do so at a step that gives the recorded Fatal result, in a state that still holds the starting spec, observed composite, name and namespace |
| Fn.RunStopsWithStepError | fn.go:51-90 | a run that a step stops hands back exactly that step's Fatal message and returned error, computed in a state holding the request's spec, observed composite, name and namespace |
| Fn.ZoneAbortStopsRest | fn.go:70-72 | from a resolved state, an aborting hosted-zone discovery stops the remaining steps at once with its error wrapped with the domain |
| Fn.ZoneAbortStops | fn.go:51-72 | once the references resolve, an aborting hosted-zone discovery ends the steps at the fourth, with its error wrapped with the domain |
| Fn.ZoneFailureIsFatal | fn.go:70-72 | an aborting hosted-zone discovery ends the run after four steps with its error wrapped with the domain, and the desired composite unchanged |
| Fn.ZoneCountIsFatal | aws.go:174-181 | no matching hosted zone, or several, ends the run with the "no hosted zone found" or "multiple hosted zones found" message wrapped with the domain |
| Fn.SplitAtSigningKey | fn.go:80 | every run either ends in the first five steps, before the signing key is fetched, or goes on from the state they leave |
| Fn.TailPanics | fn.go:80-82 | as written, a failed secret read leaves the key nil, and GenerateKeysFile panics on it |
| Fn.SigningKeyErrorPanics | fn.go:80-85 | as written, once the secret cannot be read, every run that reaches the signing-key step panics after seven steps |
| Fn.SigningKeyPanicScenario | fn.go:80-85 | as written, a composite whose references resolve and whose zone matches, but whose secret is missing, panics |
| Fn.CheckedTailStops | fn.go:80-82 | with the error checked, a failed secret read stops the run at that step with a Fatal result |
| Fn.CheckedFoldStopsAtKey | fn.go:80-82 | with the error checked, when the first five steps succeed and the secret read fails, the run stops at the sixth step with an error that names the domain |
| Fn.CheckedRunReportsSigningKeyError | fn.go:80-85 | with the error checked, a run that reaches the signing-key step and cannot read the secret returns a Fatal result that wraps the read error, with the desired composite unchanged |
| Fn.CheckedTailNeverPanics | fn.go:80-90 | with the error checked, the last three steps never panic |
| Fn.CheckedRunNeverPanics | fn.go:22-93 | with the error checked, no run panics |
| Fn.CheckedScenarioIsFatal | fn.go:80-85 | with the error checked, the same scenario stops at the sixth step with a Fatal result and no returned error |

## Left out

- AWS configuration and clients (`awsConfig`, custom service endpoints, `getRoute53Client` and the other client factories) are outside the model. Their combined outcome is a `Listing` value.
- `GetAccountId` and the STS caller-identity call are left out: `RunFunction` does not use them.
- The hosted-zone tag filter is left out. fn.go:70 passes `input.Spec.Tags`, but `DiscoverHostedZone` at aws.go:134 takes no tags parameter, and the input type in pkg/input/v1beta1/input.go has no tags field. The call site and the callee come from different revisions, and the model follows the callee.
- The spec field names at fn.go:70-82 (`Route53HostedZonePatchTo` and the others) differ from pkg/input/v1beta1/input.go, which has `…PatchToRef`. The model uses the input type's names.
- `ServiceAccountSecret` (s3.go:119-137) is an input, `Env.serviceAccountSecret`. This covers the Kubernetes client, the `{name}-sa` secret and PEM/PKCS#1 parsing. Its own nil dereference when `tls.key` holds no PEM block is left out with it.
- SHA-256 and DER marshalling are given functions, not implemented. Only the lengths and the base64url step are modelled.
- JSON encoding of both documents is left out, along with its error paths (s3.go:66-68, s3.go:110-113): documents are records. Encoding a fixed record of strings does not fail in practice.
- The field-path library (`fieldpath.Pave`, `GetString`, `SetValue`) is reduced to a map of string fields and a set of refused paths. Every read failure is `NoSuchField(ref)`: a `PaveObject` failure or a non-string value at the path reads as an absent path, and the Fatal message wraps `NoSuchField(ref)` rather than the library's own error.
- Fn.Resolve: `getStringFromPaved` (fn.go:95-103) is reduced to a map lookup. Its contract is that assumption, not a proved property of the library.
- Logging, the response's TTL and the response's other content are left out.
- Fn.FoldKeepsIdentity: the composite's name and namespace are fixed fields of the request, apart from the desired map. fn.go:75 and fn.go:80 read them from the desired composite after the hosted-zone patch. A hosted-zone patch aimed at `metadata.name` or `metadata.namespace` would change the bucket name in the issuer and the secret that is read, and that aliasing is not modelled.
- Fn.Run: on a ToResponse failure the model hands back the request's desired composite with the Fatal result. The partly converted response is not modelled.
- `importDistribution` and `importOpenIdProvider` are modelled on their own (Aws.ImportDistribution, Aws.ImportOpenIdProvider): `RunFunction` does not call them.

## Findings

| source | as written | input that shows it | evidently intended | confidence | as-written member | corrected member |
|---|---|---|---|---|---|---|
| fn.go:80-82 | the error from `ServiceAccountSecret` is assigned to `err` and then overwritten by the `GenerateKeysFile` call without being checked. `GenerateKeysFile` then receives a nil key, and `digestOfKey` dereferences it at s3.go:79, so the function panics | a composite whose references resolve and whose one hosted zone matches, with the `{name}-sa` secret missing (Fn.ScenarioRequest with Fn.ScenarioEnv) | a Fatal result that wraps the secret error, as every other step does, and no panic | not executed | Fn.SigningKeyErrorPanics | Fn.CheckedRunReportsSigningKeyError |

=== FILE: aws.dfy ===
/** List-then-filter discovery of existing AWS resources that belong to a
    domain (aws.go). Each AWS listing is an input sequence in listing order;
    each discovery produces an Action that says whether to fail, to skip
    silently, or to write one string at one field path of the desired
    composite. */
module Aws {
  import opened Errors
  import GoStrings

  /** A Route 53 hosted zone as ListHostedZones reports it; name is a DNS name, usually dot-terminated. */
  datatype HostedZone = HostedZone(id: string, name: string)

  /** A CloudFront distribution summary with its alternate domain names (aliases), in listing order. */
  datatype Distribution = Distribution(id: string, aliases: seq<string>)

  /** An entry of ListOpenIDConnectProviders, paired with what GetOpenIDConnectProvider
      returns for its ARN: the provider URL, or the error of that call. */
  datatype OidcProvider = OidcProvider(arn: string, url: Result<string>)

  /** The outcome of loading the AWS configuration and calling one listing API. */
  datatype Listing<T> =
    | Listed(items: seq<T>)
    | ConfigFailed(cause: Error)
    | ListFailed(cause: Error)

  /** What a discovery asks of the desired composite. */
  datatype Action =
    | Abort(error: Error)
    | Skip
    | Patch(path: string, value: string)

  const HostedZoneIdPrefix: string := "/hostedzone/"
  const DistributionIdPath: string := "status.importResources.cloudfrontDistributionId"
  const OpenIdProviderArnPath: string := "status.importResources.openIdProviderArn"
  const HttpsScheme: string := "https://"

  // ---------------------------------------------------------------------------
  // Hosted zones

  /** A zone belongs to the domain when its name, with one trailing dot trimmed, is the domain. */
  predicate ZoneMatches(z: HostedZone, domain: string) {
    GoStrings.TrimSuffix(z.name, ".") == domain
  }

  /** The zones that match, in listing order. */
  function MatchingZones(zones: seq<HostedZone>, domain: string): (ms: seq<HostedZone>)
    ensures |ms| <= |zones|
    ensures forall z :: z in ms ==> z in zones && ZoneMatches(z, domain)
    ensures forall z :: z in zones && ZoneMatches(z, domain) ==> z in ms
    decreases |zones|
  {
    if |zones| == 0 then []
    else if ZoneMatches(zones[0], domain) then [zones[0]] + MatchingZones(zones[1..], domain)
    else MatchingZones(zones[1..], domain)
  }

  /** DiscoverHostedZone after the configuration and listing calls: zero or
      several matches are errors; exactly one is written, its Id without the
      "/hostedzone/" prefix, to patchTo. */
  function DiscoverHostedZone(domain: string, region: string, zones: Listing<HostedZone>, patchTo: string): (a: Action)
    ensures !a.Skip?
    ensures zones.ConfigFailed? ==> a == Abort(Wrap("failed to load aws config with region " + region, zones.cause))
    ensures zones.ListFailed? ==> a == Abort(zones.cause)
    ensures zones.Listed? ==>
      var n := |MatchingZones(zones.items, domain)|;
      && (n == 0 ==> a == Abort(New("no hosted zone found matching the domain: " + domain)))
      && (n > 1 ==> a == Abort(New("multiple hosted zones found matching the domain: " + domain)))
      && (n == 1 <==> a.Patch?)
    ensures a.Patch? ==>
      && a.path == patchTo
      && exists z :: z in zones.items && ZoneMatches(z, domain) && a.value == GoStrings.TrimPrefix(z.id, HostedZoneIdPrefix)
  {
    match zones
    case ConfigFailed(cause) => Abort(Wrap("failed to load aws config with region " + region, cause))
    case ListFailed(cause) => Abort(cause)
    case Listed(items) =>
      var ms := MatchingZones(items, domain);
      if |ms| == 0 then Abort(New("no hosted zone found matching the domain: " + domain))
      else if |ms| > 1 then Abort(New("multiple hosted zones found matching the domain: " + domain))
      else
        assert ms[0] in ms;
        Patch(patchTo, GoStrings.TrimPrefix(ms[0].id, HostedZoneIdPrefix))
  }

  /** A zone matches exactly when its name is the domain followed by one dot,
      or is the domain itself and the domain does not already end in a dot. */
  lemma ZoneMatchesIff(z: HostedZone, domain: string)
    ensures ZoneMatches(z, domain) <==> z.name == domain + "." || (z.name == domain && !GoStrings.HasSuffix(domain, "."))
  {
    var t := GoStrings.TrimSuffix(z.name, ".");
    if GoStrings.HasSuffix(z.name, ".") {
      assert t + "." == z.name;
      if z.name == domain + "." {
        assert t == z.name[..|z.name| - 1] == domain;
      }
    } else {
      GoStrings.SuffixOfConcat(domain, ".");
    }
  }

  /** The multiplicity of each zone among the matches: the filter keeps every copy of a matching zone and nothing else. */
  lemma {:induction false} MatchingZonesMultiset(zones: seq<HostedZone>, domain: string, z: HostedZone)
    ensures multiset(MatchingZones(zones, domain))[z] == if ZoneMatches(z, domain) then multiset(zones)[z] else 0
    decreases |zones|
  {
    if |zones| > 0 {
      var rest := MatchingZones(zones[1..], domain);
      var here := if zones[0] == z then 1 else 0;
      assert multiset(zones)[z] == here + multiset(zones[1..])[z] by {
        assert zones == [zones[0]] + zones[1..];
      }
      MatchingZonesMultiset(zones[1..], domain, z);
      if ZoneMatches(zones[0], domain) {
        assert MatchingZones(zones, domain) == [zones[0]] + rest;
        assert multiset([zones[0]] + rest)[z] == here + multiset(rest)[z];
      } else {
        assert MatchingZones(zones, domain) == rest;
        assert here == 1 ==> !ZoneMatches(z, domain);
      }
    }
  }

  /** The outcome does not depend on the order in which the zones are listed. */
  lemma HostedZoneOrderIrrelevant(domain: string, region: string, xs: seq<HostedZone>, ys: seq<HostedZone>, patchTo: string)
    requires multiset(xs) == multiset(ys)
    ensures DiscoverHostedZone(domain, region, Listed(xs), patchTo) == DiscoverHostedZone(domain, region, Listed(ys), patchTo)
  {
    var mx, my := MatchingZones(xs, domain), MatchingZones(ys, domain);
    forall z
      ensures multiset(mx)[z] == multiset(my)[z]
    {
      MatchingZonesMultiset(xs, domain, z);
      MatchingZonesMultiset(ys, domain, z);
    }
    assert multiset(mx) == multiset(my);
    assert |mx| == |multiset(mx)| == |multiset(my)| == |my|;
    if |mx| == 1 {
      assert mx == [mx[0]] && my == [my[0]];
      assert mx[0] in multiset(my);
    }
  }

  /** One zone named "example.com." gives its Id without the prefix. */
  lemma SingleZoneScenario(region: string, patchTo: string)
    ensures DiscoverHostedZone("example.com", region, Listed([HostedZone("/hostedzone/Z0123", "example.com.")]), patchTo)
         == Patch(patchTo, "Z0123")
  {
    var z := HostedZone("/hostedzone/Z0123", "example.com.");
    ZoneMatchesIff(z, "example.com");
    assert MatchingZones([z], "example.com") == [z];
    assert GoStrings.HasPrefix(z.id, HostedZoneIdPrefix);
    assert HostedZoneIdPrefix + "Z0123" == z.id;
  }

  /** Two zones with the domain's name are ambiguous, whatever their Ids. */
  lemma DuplicateZoneScenario(region: string, id1: string, id2: string, patchTo: string)
    ensures DiscoverHostedZone("example.com", region, Listed([HostedZone(id1, "example.com."), HostedZone(id2, "example.com.")]), patchTo)
         == Abort(New("multiple hosted zones found matching the domain: " + "example.com"))
  {
    var z1, z2 := HostedZone(id1, "example.com."), HostedZone(id2, "example.com.");
    ZoneMatchesIff(z1, "example.com");
    ZoneMatchesIff(z2, "example.com");
    assert [z1, z2][1..] == [z2];
    assert MatchingZones([z1, z2], "example.com") == [z1, z2];
  }

  // ---------------------------------------------------------------------------
  // CloudFront distributions

  /** The inner loop over one distribution's aliases: the distribution once for every alias equal to the domain. */
  function AliasMatches(d: Distribution, aliases: seq<string>, domain: string): (ms: seq<Distribution>)
    ensures |ms| == multiset(aliases)[domain]
    ensures forall x :: x in ms ==> x == d
    decreases |aliases|
  {
    if |aliases| == 0 then []
    else
      assert aliases == [aliases[0]] + aliases[1..];
      (if aliases[0] == domain then [d] else []) + AliasMatches(d, aliases[1..], domain)
  }

  /** How many times the domain occurs among all aliases of all distributions. */
  function AliasHits(ds: seq<Distribution>, domain: string): nat
    decreases |ds|
  {
    if |ds| == 0 then 0 else multiset(ds[0].aliases)[domain] + AliasHits(ds[1..], domain)
  }

  /** The outer loop: the match list of importDistribution, one entry per matching alias. */
  function MatchingDistributions(ds: seq<Distribution>, domain: string): (ms: seq<Distribution>)
    ensures |ms| == AliasHits(ds, domain)
    ensures forall x :: x in ms ==> x in ds && domain in x.aliases
    ensures forall i :: 0 <= i < |ds| && domain in ds[i].aliases ==> ds[i] in ms
    decreases |ds|
  {
    if |ds| == 0 then []
    else
      var here, rest := AliasMatches(ds[0], ds[0].aliases, domain), MatchingDistributions(ds[1..], domain);
      assert domain in ds[0].aliases ==> ds[0] in here by {
        if domain in ds[0].aliases {
          assert domain in multiset(ds[0].aliases);
          assert here[0] in here;
        }
      }
      assert forall i :: 1 <= i < |ds| ==> ds[i] == ds[1..][i - 1];
      here + rest
  }

  /** One more listing of a distribution adds one more run of its matching aliases. */
  lemma MulSucc(m: int, c: int)
    ensures (m + 1) * c == m * c + c
  {
  }

  /** The multiplicity of each distribution in the match list: its number of
      listings times the number of its aliases equal to the domain. */
  lemma {:induction false} AliasMatchesMultiset(d: Distribution, aliases: seq<string>, domain: string, x: Distribution)
    ensures multiset(AliasMatches(d, aliases, domain))[x] == if x == d then multiset(aliases)[domain] else 0
    decreases |aliases|
  {
    if |aliases| > 0 {
      AliasMatchesMultiset(d, aliases[1..], domain, x);
      assert aliases == [aliases[0]] + aliases[1..];
    }
  }

  /** The hits a distribution contributes, summed over the listing. */
  function HitsOf(ds: seq<Distribution>, domain: string, x: Distribution): nat
    decreases |ds|
  {
    if |ds| == 0 then 0
    else (if ds[0] == x then multiset(x.aliases)[domain] else 0) + HitsOf(ds[1..], domain, x)
  }

  /** A distribution's count in the match list is its hits summed over the listing. */
  lemma {:induction false} MatchingDistributionsHits(ds: seq<Distribution>, domain: string, x: Distribution)
    ensures multiset(MatchingDistributions(ds, domain))[x] == HitsOf(ds, domain, x)
    decreases |ds|
  {
    if |ds| > 0 {
      var here, rest := AliasMatches(ds[0], ds[0].aliases, domain), MatchingDistributions(ds[1..], domain);
      assert MatchingDistributions(ds, domain) == here + rest;
      assert multiset(here + rest)[x] == multiset(here)[x] + multiset(rest)[x];
      MatchingDistributionsHits(ds[1..], domain, x);
      AliasMatchesMultiset(ds[0], ds[0].aliases, domain, x);
    }
  }

  /** The summed hits are the listing count times the aliases equal to the domain. */
  lemma {:induction false} HitsOfCount(ds: seq<Distribution>, domain: string, x: Distribution)
    ensures HitsOf(ds, domain, x) == multiset(ds)[x] * multiset(x.aliases)[domain]
    decreases |ds|
  {
    if |ds| > 0 {
      HitsOfCount(ds[1..], domain, x);
      var m := multiset(ds[1..])[x];
      assert multiset(ds)[x] == (if ds[0] == x then 1 else 0) + m by {
        assert ds == [ds[0]] + ds[1..];
      }
      if ds[0] == x {
        MulSucc(m, multiset(x.aliases)[domain]);
      }
    }
  }

  /** Each distribution appears in the match list once per listing of it and
      per alias of it equal to the domain. */
  lemma MatchingDistributionsMultiset(ds: seq<Distribution>, domain: string, x: Distribution)
    ensures multiset(MatchingDistributions(ds, domain))[x] == multiset(ds)[x] * multiset(x.aliases)[domain]
  {
    MatchingDistributionsHits(ds, domain, x);
    HitsOfCount(ds, domain, x);
  }

  /** importDistribution after the configuration and listing calls: no match
      is a silent skip, several are an error, one is written to the
      distribution-id status field. */
  function ImportDistribution(domain: string, region: string, dists: Listing<Distribution>): (a: Action)
    ensures dists.ConfigFailed? ==> a == Abort(Wrap("failed to load aws config", dists.cause))
    ensures dists.ListFailed? ==> a == Abort(dists.cause)
    ensures dists.Listed? ==>
      var n := AliasHits(dists.items, domain);
      && (n == 0 <==> a == Skip)
      && (n > 1 ==> a == Abort(New("multiple distributions found matching the domain: " + domain)))
      && (n == 1 <==> a.Patch?)
    ensures a.Patch? ==>
      && a.path == DistributionIdPath
      && exists d :: d in dists.items && domain in d.aliases && a.value == d.id
  {
    match dists
    case ConfigFailed(cause) => Abort(Wrap("failed to load aws config", cause))
    case ListFailed(cause) => Abort(cause)
    case Listed(items) =>
      var ms := MatchingDistributions(items, domain);
      if |ms| == 0 then Skip
      else if |ms| > 1 then Abort(New("multiple distributions found matching the domain: " + domain))
      else
        assert ms[0] in ms;
        Patch(DistributionIdPath, ms[0].id)
  }

  /** The domain occurs nowhere exactly when it is counted zero times. */
  lemma {:induction false} AliasHitsZero(ds: seq<Distribution>, domain: string)
    ensures AliasHits(ds, domain) == 0 <==> forall i :: 0 <= i < |ds| ==> domain !in ds[i].aliases
    decreases |ds|
  {
    if |ds| > 0 {
      AliasHitsZero(ds[1..], domain);
      assert forall i :: 1 <= i < |ds| ==> ds[i] == ds[1..][i - 1];
    }
  }

  /** Every distribution contributes all of its own occurrences of the domain to the count. */
  lemma {:induction false} AliasHitsAtLeast(ds: seq<Distribution>, domain: string, i: nat)
    requires i < |ds|
    ensures AliasHits(ds, domain) >= multiset(ds[i].aliases)[domain]
    decreases i
  {
    if i > 0 {
      AliasHitsAtLeast(ds[1..], domain, i - 1);
    }
  }

  /** No distribution carries the domain as an alias exactly when the import is skipped. */
  lemma DistributionSkipIff(domain: string, region: string, items: seq<Distribution>)
    ensures ImportDistribution(domain, region, Listed(items)) == Skip <==>
            forall i :: 0 <= i < |items| ==> domain !in items[i].aliases
  {
    AliasHitsZero(items, domain);
  }

  /** A single distribution that lists the domain twice among its aliases is already "multiple". */
  lemma RepeatedAliasIsAmbiguous(domain: string, region: string, items: seq<Distribution>, i: nat)
    requires i < |items| && multiset(items[i].aliases)[domain] >= 2
    ensures ImportDistribution(domain, region, Listed(items))
         == Abort(New("multiple distributions found matching the domain: " + domain))
  {
    AliasHitsAtLeast(items, domain, i);
  }

  // ---------------------------------------------------------------------------
  // IAM OpenID Connect providers

  /** A provider belongs to the domain when its detail fetch succeeded and its URL is "https://" + domain. */
  predicate ProviderMatches(p: OidcProvider, domain: string) {
    p.url.Ok? && p.url.value == HttpsScheme + domain
  }

  /** Where the provider loop stops: the index of the first matching provider,
      or the length of the listing when the loop runs to the end. Providers
      whose detail fetch failed are passed over. */
  function FirstMatch(ps: seq<OidcProvider>, domain: string): (k: nat)
    ensures k <= |ps|
    ensures k < |ps| ==> ProviderMatches(ps[k], domain)
    ensures forall j :: 0 <= j < k ==> !ProviderMatches(ps[j], domain)
    decreases |ps|
  {
    if |ps| == 0 then 0
    else if ProviderMatches(ps[0], domain) then 0
    else 1 + FirstMatch(ps[1..], domain)
  }

  /** importOpenIdProvider after the configuration and listing calls: the first
      matching provider's ARN is written to the provider-ARN status field; no
      match, or a first match with an empty ARN, is a silent skip. */
  function ImportOpenIdProvider(domain: string, region: string, providers: Listing<OidcProvider>): (a: Action)
    ensures providers.ConfigFailed? ==> a == Abort(Wrap("failed to load aws config", providers.cause))
    ensures providers.ListFailed? ==> a == Abort(providers.cause)
    ensures providers.Listed? ==> !a.Abort?
    ensures providers.Listed? && (forall i :: 0 <= i < |providers.items| ==> !ProviderMatches(providers.items[i], domain)) ==> a == Skip
    ensures a.Patch? ==>
      && a.path == OpenIdProviderArnPath
      && a.value != ""
      && exists i :: 0 <= i < |providers.items| && ProviderMatches(providers.items[i], domain) && providers.items[i].arn == a.value
                     && forall j :: 0 <= j < i ==> !ProviderMatches(providers.items[j], domain)
    ensures providers.Listed? ==>
      forall i :: 0 <= i < |providers.items| && ProviderMatches(providers.items[i], domain)
                  && (forall j :: 0 <= j < i ==> !ProviderMatches(providers.items[j], domain)) ==>
        a == (if providers.items[i].arn == "" then Skip else Patch(OpenIdProviderArnPath, providers.items[i].arn))
  {
    match providers
    case ConfigFailed(cause) => Abort(Wrap("failed to load aws config", cause))
    case ListFailed(cause) => Abort(cause)
    case Listed(items) =>
      var k := FirstMatch(items, domain);
      var arn := if k < |items| then items[k].arn else "";
      if arn == "" then Skip else Patch(OpenIdProviderArnPath, arn)
  }

  /** FirstMatch is the only index with its two defining properties. */
  lemma FirstMatchUnique(ps: seq<OidcProvider>, domain: string, k: nat)
    requires k <= |ps|
    requires k < |ps| ==> ProviderMatches(ps[k], domain)
    requires forall j :: 0 <= j < k ==> !ProviderMatches(ps[j], domain)
    ensures FirstMatch(ps, domain) == k
  {
  }

  /** Once a provider matches, the providers listed after it are never examined. */
  lemma LaterProvidersIgnored(domain: string, region: string, ps: seq<OidcProvider>, rest1: seq<OidcProvider>, rest2: seq<OidcProvider>)
    requires |ps| > 0 && ProviderMatches(ps[|ps| - 1], domain)
    ensures ImportOpenIdProvider(domain, region, Listed(ps + rest1)) == ImportOpenIdProvider(domain, region, Listed(ps + rest2))
  {
    var k := FirstMatch(ps, domain);
    FirstMatchUnique(ps + rest1, domain, k);
    FirstMatchUnique(ps + rest2, domain, k);
  }

  /** A provider whose detail fetch fails behaves as if it had not been listed. */
  lemma FetchFailureInvisible(domain: string, region: string, xs: seq<OidcProvider>, p: OidcProvider, ys: seq<OidcProvider>)
    requires p.url.Fail?
    ensures ImportOpenIdProvider(domain, region, Listed(xs + [p] + ys)) == ImportOpenIdProvider(domain, region, Listed(xs + ys))
  {
    var with, without := xs + [p] + ys, xs + ys;
    var k := FirstMatch(without, domain);
    if k < |xs| {
      assert forall j :: 0 <= j <= k ==> with[j] == without[j];
      FirstMatchUnique(with, domain, k);
    } else {
      forall j | 0 <= j < k + 1
        ensures !ProviderMatches(with[j], domain)
      {
        if j < |xs| {
          assert with[j] == without[j];
        } else if j > |xs| {
          assert with[j] == without[j - 1];
        }
      }
      if k < |without| {
        assert with[k + 1] == without[k];
      }
      FirstMatchUnique(with, domain, k + 1);
    }
  }

  /** The loop stops at the first URL match even when that provider's ARN is
      empty, and the empty ARN then reads as "no provider found". */
  lemma EmptyArnFirstMatchSkips(domain: string, region: string, arn: string)
    ensures ImportOpenIdProvider(domain, region,
              Listed([OidcProvider("", Ok(HttpsScheme + domain)), OidcProvider(arn, Ok(HttpsScheme + domain))]))
         == Skip
  {
  }
}

=== FILE: base64url.dfy ===
/** Base 64 encoding with the URL and filename safe alphabet (section 5 of
    RFC 4648), with the trailing '=' padding omitted as section 3.2 of the same
    RFC permits. This is the encoding Go calls base64.RawURLEncoding.

    Encoding is split in two stages: regrouping the input bits into 6-bit
    values (section 4 of RFC 4648) and mapping each value to its character.
    The decoder is the encoder's partner: it accepts exactly the canonical
    unpadded encodings (no length of the form 4k+1, no stray bits in the last
    character), so that the two are mutually inverse. */
module Base64Url {
  import opened Errors

  type byte = x: int | 0 <= x < 256

  /** A six-bit group: one character of the encoding. */
  type sextet = x: int | 0 <= x < 64

  /** Membership in the alphabet of section 5 of RFC 4648. */
  predicate IsUrlChar(c: char) {
    ('A' <= c <= 'Z') || ('a' <= c <= 'z') || ('0' <= c <= '9') || c == '-' || c == '_'
  }

  predicate IsUrlString(s: string) {
    forall i :: 0 <= i < |s| ==> IsUrlChar(s[i])
  }

  /** Table 2 of RFC 4648: value 0..25 is 'A'..'Z', 26..51 'a'..'z', 52..61 '0'..'9', 62 '-', 63 '_'. */
  function CharOf(v: sextet): (c: char)
    ensures IsUrlChar(c)
  {
    if v < 26 then ('A' as int + v) as char
    else if v < 52 then ('a' as int + (v - 26)) as char
    else if v < 62 then ('0' as int + (v - 52)) as char
    else if v == 62 then '-'
    else '_'
  }

  /** The inverse of CharOf on the alphabet. */
  function ValueOf(c: char): (v: sextet)
    requires IsUrlChar(c)
    ensures CharOf(v) == c
  {
    if 'A' <= c <= 'Z' then c as int - 'A' as int
    else if 'a' <= c <= 'z' then c as int - 'a' as int + 26
    else if '0' <= c <= '9' then c as int - '0' as int + 52
    else if c == '-' then 62
    else 63
  }

  lemma ValueOfCharOf(v: sextet)
    ensures ValueOf(CharOf(v)) == v
  {
  }

  /** A full group: 3 bytes (24 bits) as 4 values of 6 bits. */
  function Split3(b0: byte, b1: byte, b2: byte): seq<sextet> {
    [b0 / 4, b0 % 4 * 16 + b1 / 16, b1 % 16 * 4 + b2 / 64, b2 % 64]
  }

  /** A final group of 2 bytes: 16 bits, padded with 2 zero bits to 3 values. */
  function Split2(b0: byte, b1: byte): seq<sextet> {
    [b0 / 4, b0 % 4 * 16 + b1 / 16, b1 % 16 * 4]
  }

  /** A final group of 1 byte: 8 bits, padded with 4 zero bits to 2 values. */
  function Split1(b0: byte): seq<sextet> {
    [b0 / 4, b0 % 4 * 16]
  }

  /** The inverse of Split3: 4 values of 6 bits back to 3 bytes. */
  function Join4(v0: sextet, v1: sextet, v2: sextet, v3: sextet): seq<byte> {
    [v0 as int * 4 + v1 / 16, v1 as int % 16 * 16 + v2 / 4, v2 as int % 4 * 64 + v3]
  }

  /** The inverse of Split2; None when the 2 padding bits are not zero. */
  function Join3(v0: sextet, v1: sextet, v2: sextet): Option<seq<byte>> {
    if v2 % 4 != 0 then None else Some([v0 as int * 4 + v1 / 16, v1 as int % 16 * 16 + v2 / 4])
  }

  /** The inverse of Split1; None when the 4 padding bits are not zero. */
  function Join2(v0: sextet, v1: sextet): Option<seq<byte>> {
    if v1 % 16 != 0 then None else Some([v0 as int * 4 + v1 / 16])
  }

  /** Regrouping of 8-bit input into 6-bit values, without padding (section 4
      of RFC 4648 with the pad characters dropped). */
  function Sextets(b: seq<byte>): (v: seq<sextet>)
    ensures 4 * |b| <= 3 * |v| <= 4 * |b| + 2
    decreases |b|
  {
    if |b| == 0 then []
    else if |b| == 1 then Split1(b[0])
    else if |b| == 2 then Split2(b[0], b[1])
    else Split3(b[0], b[1], b[2]) + Sextets(b[3..])
  }

  /** The inverse regrouping; None when the values cannot come from Sextets. */
  function Octets(v: seq<sextet>): (r: Option<seq<byte>>)
    decreases |v|
  {
    if |v| == 0 then Some([])
    else if |v| == 1 then None
    else if |v| == 2 then Join2(v[0], v[1])
    else if |v| == 3 then Join3(v[0], v[1], v[2])
    else
      match Octets(v[4..])
      case None => None
      case Some(rest) => Some(Join4(v[0], v[1], v[2], v[3]) + rest)
  }

  /** The unpadded URL-safe encoding. */
  function Encode(b: seq<byte>): (s: string)
    ensures 4 * |b| <= 3 * |s| <= 4 * |b| + 2
    ensures IsUrlString(s)
  {
    var v := Sextets(b);
    seq(|v|, i requires 0 <= i < |v| => CharOf(v[i]))
  }

  /** Decoding of canonical unpadded text; None for anything Encode cannot produce. */
  function Decode(s: string): (r: Option<seq<byte>>)
  {
    if IsUrlString(s) then Octets(seq(|s|, i requires 0 <= i < |s| => ValueOf(s[i]))) else None
  }

  /** Division by the three group widths, for a value given by quotient and remainder. */
  lemma DivMod4(q: int, r: int)
    requires 0 <= r < 4
    ensures (q * 4 + r) / 4 == q && (q * 4 + r) % 4 == r
  {
  }

  lemma DivMod16(q: int, r: int)
    requires 0 <= r < 16
    ensures (q * 16 + r) / 16 == q && (q * 16 + r) % 16 == r
  {
  }

  lemma DivMod64(q: int, r: int)
    requires 0 <= r < 64
    ensures (q * 64 + r) / 64 == q && (q * 64 + r) % 64 == r
  {
  }

  /** Joining undoes splitting, for each group size. */
  lemma JoinSplit1(b0: byte)
    ensures Join2(Split1(b0)[0], Split1(b0)[1]) == Some([b0])
  {
    DivMod16(b0 % 4, 0);
  }

  lemma JoinSplit2(b0: byte, b1: byte)
    ensures Join3(Split2(b0, b1)[0], Split2(b0, b1)[1], Split2(b0, b1)[2]) == Some([b0, b1])
  {
    DivMod16(b0 % 4, b1 / 16);
    DivMod4(b1 % 16, 0);
  }

  lemma JoinSplit3(b0: byte, b1: byte, b2: byte)
    ensures Join4(Split3(b0, b1, b2)[0], Split3(b0, b1, b2)[1], Split3(b0, b1, b2)[2], Split3(b0, b1, b2)[3]) == [b0, b1, b2]
  {
    DivMod16(b0 % 4, b1 / 16);
    DivMod4(b1 % 16, b2 / 64);
  }

  /** Splitting undoes joining, for each group size. */
  lemma SplitJoin2(v0: sextet, v1: sextet)
    requires Join2(v0, v1).Some?
    ensures Split1(Join2(v0, v1).value[0]) == [v0, v1]
  {
    DivMod4(v0, v1 / 16);
  }

  lemma SplitJoin3(v0: sextet, v1: sextet, v2: sextet)
    requires Join3(v0, v1, v2).Some?
    ensures Split2(Join3(v0, v1, v2).value[0], Join3(v0, v1, v2).value[1]) == [v0, v1, v2]
  {
    DivMod4(v0, v1 / 16);
    DivMod16(v1 % 16, v2 / 4);
  }

  lemma SplitJoin4(v0: sextet, v1: sextet, v2: sextet, v3: sextet)
    ensures Split3(Join4(v0, v1, v2, v3)[0], Join4(v0, v1, v2, v3)[1], Join4(v0, v1, v2, v3)[2]) == [v0, v1, v2, v3]
  {
    DivMod4(v0, v1 / 16);
    DivMod16(v1 % 16, v2 / 4);
    DivMod64(v2 % 4, v3);
  }

  /** Regrouping back recovers every byte string. */
  lemma {:induction false} OctetsSextets(b: seq<byte>)
    ensures Octets(Sextets(b)) == Some(b)
    decreases |b|
  {
    if |b| == 1 {
      JoinSplit1(b[0]);
      assert b == [b[0]];
    } else if |b| == 2 {
      JoinSplit2(b[0], b[1]);
      assert b == [b[0], b[1]];
    } else if |b| >= 3 {
      var g := Split3(b[0], b[1], b[2]);
      var v := Sextets(b);
      assert v == g + Sextets(b[3..]);
      assert v[4..] == Sextets(b[3..]);
      JoinSplit3(b[0], b[1], b[2]);
      OctetsSextets(b[3..]);
      assert b == [b[0], b[1], b[2]] + b[3..];
    }
  }

  /** Every value sequence Octets accepts is the regrouping of what it returns. */
  lemma {:induction false} SextetsOctets(v: seq<sextet>)
    requires Octets(v).Some?
    ensures Sextets(Octets(v).value) == v
    decreases |v|
  {
    var b := Octets(v).value;
    if |v| == 2 {
      SplitJoin2(v[0], v[1]);
    } else if |v| == 3 {
      SplitJoin3(v[0], v[1], v[2]);
    } else if |v| >= 4 {
      SplitJoin4(v[0], v[1], v[2], v[3]);
      SextetsOctets(v[4..]);
      var j := Join4(v[0], v[1], v[2], v[3]);
      assert b == j + Octets(v[4..]).value;
      assert b[3..] == Octets(v[4..]).value;
      assert v == [v[0], v[1], v[2], v[3]] + v[4..];
    }
  }

  /** Decoding recovers every encoded byte string. */
  lemma DecodeEncode(b: seq<byte>)
    ensures Decode(Encode(b)) == Some(b)
  {
    var v := Sextets(b);
    var s := Encode(b);
    forall i | 0 <= i < |v|
      ensures ValueOf(s[i]) == v[i]
    {
      ValueOfCharOf(v[i]);
    }
    assert seq(|s|, i requires 0 <= i < |s| => ValueOf(s[i])) == v;
    OctetsSextets(b);
  }

  /** Every text the decoder accepts is the encoding of what it decodes to. */
  lemma EncodeDecode(s: string)
    requires Decode(s).Some?
    ensures Encode(Decode(s).value) == s
  {
    var v := seq(|s|, i requires 0 <= i < |s| => ValueOf(s[i]));
    SextetsOctets(v);
  }

  /** Distinct byte strings have distinct encodings. */
  lemma EncodeInjective(a: seq<byte>, b: seq<byte>)
    ensures Encode(a) == Encode(b) <==> a == b
  {
    if Encode(a) == Encode(b) {
      DecodeEncode(a);
      DecodeEncode(b);
    }
  }

  /** The test vectors of section 10 of RFC 4648 for "", "f", "fo" and "foo",
      without padding. */
  lemma RfcVectorsShort()
    ensures Encode([]) == ""
    ensures Encode([102]) == "Zg"
    ensures Encode([102, 111]) == "Zm8"
    ensures Encode([102, 111, 111]) == "Zm9v"
  {
  }

  /** The test vectors of section 10 of RFC 4648 for "foob", "fooba" and
      "foobar", without padding, with the 6-bit values each one goes through. */
  lemma RfcVectorFoob()
    ensures Encode([102, 111, 111, 98]) == "Zm9vYg"
  {
    assert Sextets([102, 111, 111, 98]) == [25, 38, 61, 47, 24, 32];
  }

  lemma RfcVectorFooba()
    ensures Encode([102, 111, 111, 98, 97]) == "Zm9vYmE"
  {
    assert Sextets([102, 111, 111, 98, 97]) == [25, 38, 61, 47, 24, 38, 4];
  }

  lemma RfcVectorFoobar()
    ensures Encode([102, 111, 111, 98, 97, 114]) == "Zm9vYmFy"
  {
    assert Sextets([102, 111, 111, 98, 97, 114]) == [25, 38, 61, 47, 24, 38, 5, 50];
  }

  /** The two values where the URL-safe alphabet differs from the standard
      one: 62 is '-' and 63 is '_' (bytes FB FF give values 62, 63, 60). */
  lemma UrlAlphabetVector()
    ensures Encode([251, 255]) == "-_8"
  {
  }
}

=== FILE: composite.dfy ===
/** The desired composite resource, seen only through the field paths the
    function writes. Writing is the field-path library's job and may fail for
    a path it cannot set; which paths those are is an input. */
module Composite {
  import opened Errors
  import S3

  /** What the function writes: a plain string, or one of the two documents
      (which the function writes as JSON bytes). */
  datatype Value =
    | Text(text: string)
    | DiscoveryJson(discovery: S3.DiscoveryDocument)
    | KeysJson(keySet: S3.KeySet)

  type Desired = map<string, Value>

  /** patchFieldValueToObject: set one field path of the desired composite. */
  function Write(obj: Desired, rejected: set<string>, path: string, v: Value): (r: Result<Desired>)
    ensures r.Fail? <==> path in rejected
    ensures r.Fail? ==> r.error == PatchRejected(path)
    ensures r.Ok? ==> r.value.Keys == obj.Keys + {path} && r.value[path] == v
    ensures r.Ok? ==> forall p :: p in obj && p != path ==> r.value[p] == obj[p]
  {
    if path in rejected then Fail(PatchRejected(path)) else Ok(obj[path := v])
  }
}

=== FILE: errors.dfy ===
/** Go-style errors and the failure-compatible wrappers the rest of the model uses.

    Errors are kept structural rather than rendered to strings: each constructor
    mirrors one way the function builds an error value (errors.New,
    errors.Wrap, errors.Wrapf, an opaque error from a collaborator).
 */
module Errors {

  datatype Error =
    /** An error returned by a collaborator whose code is not modelled (AWS SDK, Kubernetes client). */
    | Cause(message: string)
    /** errors.New(message) */
    | New(message: string)
    /** errors.Wrap(inner, message): renders as "message: inner" */
    | Wrap(message: string, inner: Error)
    /** errors.Wrapf(inner, format, arg) with a single verb in format */
    | Wrapf(format: string, arg: string, inner: Error)
    /** fmt.Errorf(format, inner) with a single %v verb: the message embeds the
        inner error's text, but the inner error is not wrapped */
    | Errorf(format: string, inner: Error)
    /** composite.MissingSpec: the function input carried no spec */
    | MissingSpec
    /** The field-path library could not read a string at this path of the observed composite */
    | NoSuchField(path: string)
    /** The field-path library refused to write at this path of the desired composite */
    | PatchRejected(path: string)

  datatype Option<+T> = None | Some(value: T)

  datatype Result<+T> = Ok(value: T) | Fail(error: Error) {

    predicate IsFailure() {
      Fail?
    }

    function PropagateFailure<U>(): Result<U>
      requires Fail?
    {
      Fail(error)
    }

    function Extract(): T
      requires Ok?
    {
      value
    }
  }
}

=== FILE: fn.dfy ===
/** RunFunction (fn.go): a linear pipeline over the steps region, provider
    config, domain, hosted zone, discovery file, signing key, keys file and
    response. The first step that fails records a Fatal result in the response
    and ends the run; the run is a fold over the step list that stops there. */
module Fn {
  import opened Errors
  import Aws
  import S3
  import Composite

  const ComposedName: string := "crossplane-fn-irsa"

  /** The Go type named by %T in the message for a failed ToResponse. */
  const ResponseType: string := "*v1.RunFunctionResponse"

  /** The function input's spec (pkg/input/v1beta1/input.go). Every field is a field path. */
  datatype Spec = Spec(
    domainRef: string,
    route53HostedZonePatchToRef: string,
    s3KeysPatchToRef: string,
    s3BucketNameRef: string,
    s3DiscoveryPatchToRef: string,
    regionRef: string,
    providerConfigRef: string)

  /** What RunFunction receives. */
  datatype Request = Request(
    /** GetObservedCompositeResource: the observed composite as its string-valued field paths, or the error */
    observed: Result<map<string, string>>,
    /** composite.New: the decoded function input, whose spec may be absent (nil), or the error */
    input: Result<Option<Spec>>,
    /** The desired composite the request carries */
    desired: Composite.Desired,
    /** The desired composite's metadata name and namespace */
    name: string,
    namespace: string)

  /** The collaborators RunFunction calls, given as their answers. */
  datatype Env = Env(
    /** awsConfig + ListHostedZones, by region and provider config */
    hostedZones: (string, string) -> Aws.Listing<Aws.HostedZone>,
    /** ServiceAccountSecret, by namespace and name */
    serviceAccountSecret: (string, string) -> Result<S3.PrivateKey>,
    crypto: S3.Crypto,
    /** Field paths the field-path library refuses to set on the desired composite */
    rejectedPaths: set<string>,
    /** The error of composed.ToResponse, if it fails */
    toResponse: Option<Error>)

  datatype Stage =
    | ResolveRegion
    | ResolveProviderConfig
    | ResolveDomain
    | DiscoverHostedZone
    | GenerateDiscoveryFile
    | FetchSigningKey
    | GenerateKeysFile
    | ToResponse

  /** The order in which RunFunction runs its steps. */
  const Stages: seq<Stage> := [ResolveRegion, ResolveProviderConfig, ResolveDomain, DiscoverHostedZone,
                               GenerateDiscoveryFile, FetchSigningKey, GenerateKeysFile, ToResponse]

  /** The local state RunFunction accumulates. key is None when the fetched key pointer is nil. */
  datatype Ctx = Ctx(
    spec: Spec,
    observed: map<string, string>,
    name: string,
    namespace: string,
    region: string,
    providerConfig: string,
    domain: string,
    key: Option<S3.PrivateKey>,
    desired: Composite.Desired)

  /** One step's outcome: carry on, stop with a Fatal result (and, for
      ToResponse, the error RunFunction returns), or a runtime panic. */
  datatype Step =
    | Next(ctx: Ctx)
    | Fatal(error: Error, returned: Option<Error>)
    | Panic

  // ---------------------------------------------------------------------------
  // The steps

  /** getStringFromPaved: read a string at a field path of the observed composite. */
  function Resolve(observed: map<string, string>, ref: string): (r: Result<string>)
    ensures r.Ok? <==> ref in observed
    ensures r.Ok? ==> r.value == observed[ref]
    ensures r.Fail? ==> r.error == NoSuchField(ref)
  {
    if ref in observed then Ok(observed[ref]) else Fail(NoSuchField(ref))
  }

  /** Carry out a discovery's Action on the desired composite. */
  function Apply(env: Env, c: Ctx, a: Aws.Action): (r: Result<Ctx>)
    ensures r.Ok? ==> r.value == c.(desired := r.value.desired)
    ensures r.Fail? && a.Abort? ==> r.error == a.error
  {
    match a
    case Abort(e) => Fail(e)
    case Skip => Ok(c)
    case Patch(path, value) =>
      var desired :- Composite.Write(c.desired, env.rejectedPaths, path, Composite.Text(value));
      Ok(c.(desired := desired))
  }

  /** Which treatment of the signing-key error a run follows: the code as
      written (fn.go:80-82 overwrites the error unchecked), or the evident
      intent of reporting it as Fatal. */
  datatype Revision = AsWritten | KeyErrorChecked

  /** One step of RunFunction. */
  function Exec(env: Env, rev: Revision, stage: Stage, c: Ctx): (s: Step)
    ensures s.Next? ==> s.ctx.spec == c.spec && s.ctx.observed == c.observed
    ensures s.Next? ==> s.ctx.name == c.name && s.ctx.namespace == c.namespace
    ensures s.Fatal? && s.returned.Some? ==>
      stage == ToResponse && s.error == Wrapf("cannot convert composition to response %T", ResponseType, s.returned.value)
    ensures s.Panic? ==> stage == GenerateKeysFile && c.key.None?
  {
    match stage
    case ResolveRegion =>
      (match Resolve(c.observed, c.spec.regionRef)
       case Ok(v) => Next(c.(region := v))
       case Fail(e) => Fatal(Wrapf("cannot get region from %q", c.spec.regionRef, e), None))
    case ResolveProviderConfig =>
      (match Resolve(c.observed, c.spec.providerConfigRef)
       case Ok(v) => Next(c.(providerConfig := v))
       case Fail(e) => Fatal(Wrap("cannot get provider config reference from input", e), None))
    case ResolveDomain =>
      // fn.go:65 reports the region reference, not the domain reference
      (match Resolve(c.observed, c.spec.domainRef)
       case Ok(v) => Next(c.(domain := v))
       case Fail(e) => Fatal(Wrapf("cannot get region from %q", c.spec.regionRef, e), None))
    case DiscoverHostedZone =>
      var a := Aws.DiscoverHostedZone(c.domain, c.region, env.hostedZones(c.region, c.providerConfig),
                                      c.spec.route53HostedZonePatchToRef);
      (match Apply(env, c, a)
       case Ok(c') => Next(c')
       case Fail(e) => Fatal(Wrapf("cannot discover hosted zone for domain %q", c.domain, e), None))
    case GenerateDiscoveryFile =>
      var doc := S3.GenerateDiscoveryFile(c.domain, c.name, c.region);
      (match Composite.Write(c.desired, env.rejectedPaths, c.spec.s3DiscoveryPatchToRef, Composite.DiscoveryJson(doc))
       case Ok(d) => Next(c.(desired := d))
       case Fail(e) => Fatal(Wrapf("cannot generate discovery file for domain %q", c.domain, e), None))
    case FetchSigningKey =>
      (match env.serviceAccountSecret(c.namespace, c.name)
       case Ok(k) => Next(c.(key := Some(k)))
       case Fail(e) =>
         if rev == KeyErrorChecked then Fatal(Wrapf("cannot get service account signing key for domain %q", c.domain, e), None)
         else Next(c.(key := None)))
    case GenerateKeysFile =>
      (match c.key
       case None => Panic  // digestOfKey dereferences the nil key
       case Some(k) =>
         (match S3.GenerateKeysFile(env.crypto, k)
          case Fail(e) => Fatal(Wrapf("cannot generate keys file for domain %q", c.domain, e), None)
          case Ok(ks) =>
            (match Composite.Write(c.desired, env.rejectedPaths, c.spec.s3KeysPatchToRef, Composite.KeysJson(ks))
             case Ok(d) => Next(c.(desired := d))
             case Fail(e) => Fatal(Wrapf("cannot generate keys file for domain %q", c.domain, e), None))))
    case ToResponse =>
      (match env.toResponse
       case None => Next(c)
       case Some(e) => Fatal(Wrapf("cannot convert composition to response %T", ResponseType, e), Some(e)))
  }

  // The Fatal message of each step: the step's own text around the error that stopped it

  /** The resolving steps report the missing reference (fn.go:52, 59, 65);
      the domain step names the region reference. */
  lemma ResolveFailures(env: Env, rev: Revision, c: Ctx)
    ensures Exec(env, rev, ResolveRegion, c).Fatal? ==>
      Exec(env, rev, ResolveRegion, c).error == Wrapf("cannot get region from %q", c.spec.regionRef, NoSuchField(c.spec.regionRef))
    ensures Exec(env, rev, ResolveProviderConfig, c).Fatal? ==>
      Exec(env, rev, ResolveProviderConfig, c).error ==
        Wrap("cannot get provider config reference from input", NoSuchField(c.spec.providerConfigRef))
    ensures Exec(env, rev, ResolveDomain, c).Fatal? ==>
      Exec(env, rev, ResolveDomain, c).error == Wrapf("cannot get region from %q", c.spec.regionRef, NoSuchField(c.spec.domainRef))
  {
  }

  /** A failed hosted-zone discovery reports the discovery's own error, or the
      refused patch, under the domain (fn.go:71). */
  lemma ZoneFailure(env: Env, rev: Revision, c: Ctx)
    ensures var a := ZoneAction(env, c);
      Exec(env, rev, DiscoverHostedZone, c).Fatal? ==>
        Exec(env, rev, DiscoverHostedZone, c).error ==
          Wrapf("cannot discover hosted zone for domain %q", c.domain,
                if a.Abort? then a.error else PatchRejected(c.spec.route53HostedZonePatchToRef))
  {
  }

  /** A refused discovery-file patch is reported under the domain (fn.go:76). */
  lemma DiscoveryFailure(env: Env, rev: Revision, c: Ctx)
    ensures Exec(env, rev, GenerateDiscoveryFile, c).Fatal? ==>
      Exec(env, rev, GenerateDiscoveryFile, c).error ==
        Wrapf("cannot generate discovery file for domain %q", c.domain, PatchRejected(c.spec.s3DiscoveryPatchToRef))
  {
  }

  /** The signing-key step stops a run only with its error checked, and then
      reports the secret's error under the domain. */
  lemma KeyFailure(env: Env, rev: Revision, c: Ctx)
    ensures Exec(env, rev, FetchSigningKey, c).Fatal? ==>
      && rev == KeyErrorChecked && env.serviceAccountSecret(c.namespace, c.name).Fail?
      && Exec(env, rev, FetchSigningKey, c).error ==
           Wrapf("cannot get service account signing key for domain %q", c.domain,
                 env.serviceAccountSecret(c.namespace, c.name).error)
  {
  }

  /** A failed key-id computation or a refused keys-file patch is reported
      under the domain (fn.go:83). */
  lemma KeysFileFailure(env: Env, rev: Revision, c: Ctx)
    ensures Exec(env, rev, GenerateKeysFile, c).Fatal? ==>
      && c.key.Some?
      && var ks := S3.GenerateKeysFile(env.crypto, c.key.value);
         Exec(env, rev, GenerateKeysFile, c).error ==
           Wrapf("cannot generate keys file for domain %q", c.domain,
                 if ks.Fail? then ks.error else PatchRejected(c.spec.s3KeysPatchToRef))
  {
  }

  /** Each resolving step carries on exactly when its reference is present, and records the value. */
  lemma ResolveStep(env: Env, rev: Revision, c: Ctx)
    ensures Exec(env, rev, ResolveRegion, c).Next? <==> c.spec.regionRef in c.observed
    ensures Exec(env, rev, ResolveProviderConfig, c).Next? <==> c.spec.providerConfigRef in c.observed
    ensures Exec(env, rev, ResolveDomain, c).Next? <==> c.spec.domainRef in c.observed
    ensures c.spec.regionRef in c.observed ==>
      Exec(env, rev, ResolveRegion, c).ctx == c.(region := c.observed[c.spec.regionRef])
    ensures c.spec.providerConfigRef in c.observed ==>
      Exec(env, rev, ResolveProviderConfig, c).ctx == c.(providerConfig := c.observed[c.spec.providerConfigRef])
    ensures c.spec.domainRef in c.observed ==>
      Exec(env, rev, ResolveDomain, c).ctx == c.(domain := c.observed[c.spec.domainRef])
  {
  }

  /** The hosted-zone step carries on exactly when one zone matches and its patch is accepted. */
  lemma ZoneStep(env: Env, rev: Revision, r: Ctx)
    ensures var a := ZoneAction(env, r);
      Exec(env, rev, DiscoverHostedZone, r).Next? <==> a.Patch? && a.path !in env.rejectedPaths
    ensures var a := ZoneAction(env, r);
      a.Patch? && a.path !in env.rejectedPaths ==>
        Exec(env, rev, DiscoverHostedZone, r).ctx == r.(desired := r.desired[a.path := Composite.Text(a.value)])
  {
  }

  /** The discovery-file step carries on exactly when its patch is accepted. */
  lemma DiscoveryStep(env: Env, rev: Revision, c: Ctx)
    ensures Exec(env, rev, GenerateDiscoveryFile, c).Next? <==> c.spec.s3DiscoveryPatchToRef !in env.rejectedPaths
    ensures c.spec.s3DiscoveryPatchToRef !in env.rejectedPaths ==>
      Exec(env, rev, GenerateDiscoveryFile, c).ctx ==
        c.(desired := c.desired[c.spec.s3DiscoveryPatchToRef := Composite.DiscoveryJson(S3.GenerateDiscoveryFile(c.domain, c.name, c.region))])
  {
  }

  /** The signing-key and keys-file steps, for a fetched key. */
  lemma KeyStep(env: Env, rev: Revision, c: Ctx)
    requires env.serviceAccountSecret(c.namespace, c.name).Ok?
    ensures var k := env.serviceAccountSecret(c.namespace, c.name).value;
      Exec(env, rev, FetchSigningKey, c) == Next(c.(key := Some(k)))
  {
  }

  /** As written, a failed secret fetch is not checked and leaves the key nil. */
  lemma SecretFailureDropsKey(env: Env, c: Ctx)
    requires env.serviceAccountSecret(c.namespace, c.name).Fail?
    ensures Exec(env, AsWritten, FetchSigningKey, c) == Next(c.(key := None))
  {
  }

  /** With the error checked, a failed secret fetch is Fatal and names the domain. */
  lemma CheckedSecretFailureStops(env: Env, c: Ctx)
    requires env.serviceAccountSecret(c.namespace, c.name).Fail?
    ensures Exec(env, KeyErrorChecked, FetchSigningKey, c) ==
      Fatal(Wrapf("cannot get service account signing key for domain %q", c.domain,
                  env.serviceAccountSecret(c.namespace, c.name).error), None)
  {
  }

  /** GenerateKeysFile on a nil key dereferences it. */
  lemma NilKeyPanics(env: Env, rev: Revision, c: Ctx)
    requires c.key.None?
    ensures Exec(env, rev, GenerateKeysFile, c) == Panic
  {
  }

  lemma KeysFileStep(env: Env, rev: Revision, c: Ctx, k: S3.PrivateKey)
    requires c.key == Some(k)
    ensures var ks := S3.GenerateKeysFile(env.crypto, k);
      Exec(env, rev, GenerateKeysFile, c).Next? <==> ks.Ok? && c.spec.s3KeysPatchToRef !in env.rejectedPaths
    ensures var ks := S3.GenerateKeysFile(env.crypto, k);
      ks.Ok? && c.spec.s3KeysPatchToRef !in env.rejectedPaths ==>
        Exec(env, rev, GenerateKeysFile, c).ctx == c.(desired := c.desired[c.spec.s3KeysPatchToRef := Composite.KeysJson(ks.value)])
  {
  }

  lemma ResponseStep(env: Env, rev: Revision, c: Ctx)
    ensures Exec(env, rev, ToResponse, c).Next? <==> env.toResponse.None?
    ensures env.toResponse.None? ==> Exec(env, rev, ToResponse, c).ctx == c
  {
  }

  // ---------------------------------------------------------------------------
  // Running steps until one does not carry on

  /** How a fold over a list of steps ends, with the steps it ran; a stop or
      crash also records the state the last step ran in. */
  datatype Walk =
    | Completed(ctx: Ctx, trace: seq<Stage>)
    | Stopped(at: Ctx, error: Error, returned: Option<Error>, trace: seq<Stage>)
    | Crashed(at: Ctx, trace: seq<Stage>)

  function Prepend(t: seq<Stage>, w: Walk): Walk {
    w.(trace := t + w.trace)
  }

  /** Run the steps in order until one does not carry on. */
  function Fold(exec: (Stage, Ctx) -> Step, stages: seq<Stage>, c: Ctx): (w: Walk)
    ensures |w.trace| <= |stages| && w.trace == stages[..|w.trace|]
    ensures w.Completed? ==> w.trace == stages
    ensures !w.Completed? ==> |w.trace| > 0
    decreases |stages|
  {
    if |stages| == 0 then Completed(c, [])
    else
      match exec(stages[0], c)
      case Next(c') => Prepend([stages[0]], Fold(exec, stages[1..], c'))
      case Fatal(e, ret) => Stopped(c, e, ret, [stages[0]])
      case Panic => Crashed(c, [stages[0]])
  }

  /** A fold that stops or crashes does so at the last step it ran, in the state it records. */
  lemma {:induction false} FoldEnding(exec: (Stage, Ctx) -> Step, stages: seq<Stage>, c: Ctx)
    ensures var w := Fold(exec, stages, c);
      && (w.Stopped? ==> exec(w.trace[|w.trace| - 1], w.at) == Fatal(w.error, w.returned))
      && (w.Crashed? ==> exec(w.trace[|w.trace| - 1], w.at) == Panic)
    decreases |stages|
  {
    if |stages| > 0 && exec(stages[0], c).Next? {
      FoldEnding(exec, stages[1..], exec(stages[0], c).ctx);
    }
  }

  /** A step that carries on hands the rest of the fold its state. */
  lemma FoldNext(exec: (Stage, Ctx) -> Step, stages: seq<Stage>, c: Ctx)
    requires |stages| > 0 && exec(stages[0], c).Next?
    ensures Fold(exec, stages, c) == Prepend([stages[0]], Fold(exec, stages[1..], exec(stages[0], c).ctx))
  {
  }

  /** A single step run as a fold. */
  lemma FoldOne(exec: (Stage, Ctx) -> Step, st: Stage, c: Ctx)
    ensures exec(st, c).Next? ==> Fold(exec, [st], c) == Completed(exec(st, c).ctx, [st])
    ensures exec(st, c).Fatal? ==> Fold(exec, [st], c) == Stopped(c, exec(st, c).error, exec(st, c).returned, [st])
    ensures exec(st, c).Panic? ==> Fold(exec, [st], c) == Crashed(c, [st])
  {
    assert [st][1..] == [];
  }

  /** A fold over a that stops or crashes ends a fold over a + b the same way:
      a failure stops everything after it. */
  lemma {:induction false} FoldStopsEarly(exec: (Stage, Ctx) -> Step, a: seq<Stage>, b: seq<Stage>, c: Ctx)
    requires !Fold(exec, a, c).Completed?
    ensures Fold(exec, a + b, c) == Fold(exec, a, c)
    decreases |a|
  {
    assert (a + b)[0] == a[0] && (a + b)[1..] == a[1..] + b;
    var s := exec(a[0], c);
    if s.Next? {
      FoldStopsEarly(exec, a[1..], b, s.ctx);
    }
  }

  /** A fold over a that completes goes on over b from the state it reached. */
  lemma {:induction false} FoldGoesOn(exec: (Stage, Ctx) -> Step, a: seq<Stage>, b: seq<Stage>, c: Ctx)
    requires Fold(exec, a, c).Completed?
    ensures Fold(exec, a + b, c) == Prepend(a, Fold(exec, b, Fold(exec, a, c).ctx))
    decreases |a|
  {
    if |a| == 0 {
      assert a + b == b;
    } else {
      assert (a + b)[0] == a[0] && (a + b)[1..] == a[1..] + b;
      var c' := exec(a[0], c).ctx;
      var w' := Fold(exec, a[1..], c');
      assert Fold(exec, a, c) == Prepend([a[0]], w');
      FoldGoesOn(exec, a[1..], b, c');
      var r := Fold(exec, b, w'.ctx);
      assert Fold(exec, a[1..] + b, c') == Prepend(a[1..], r);
      assert Fold(exec, a + b, c) == Prepend([a[0]], Fold(exec, a[1..] + b, c'));
      assert [a[0]] + (a[1..] + r.trace) == a + r.trace;
    }
  }

  // ---------------------------------------------------------------------------
  // RunFunction

  /** The steps of RunFunction under a revision. */
  function Steps(env: Env, rev: Revision): (Stage, Ctx) -> Step {
    (stage, c) => Exec(env, rev, stage, c)
  }

  /** No step touches the spec, the observed composite or the composite's identity. */
  lemma {:induction false} FoldKeepsIdentity(env: Env, rev: Revision, stages: seq<Stage>, c: Ctx)
    ensures var w := Fold(Steps(env, rev), stages, c);
      var d := if w.Completed? then w.ctx else w.at;
      d.spec == c.spec && d.observed == c.observed && d.name == c.name && d.namespace == c.namespace
    decreases |stages|
  {
    if |stages| > 0 && Exec(env, rev, stages[0], c).Next? {
      FoldKeepsIdentity(env, rev, stages[1..], Exec(env, rev, stages[0], c).ctx);
    }
  }

  /** GenerateKeysFile is the seventh step and no other. */
  lemma KeysFileIsSeventh(n: nat)
    requires 0 < n <= |Stages| && Stages[n - 1] == GenerateKeysFile
    ensures Stages[..n] == Stages[..7]
  {
  }

  /** ToResponse is the last step and no other. */
  lemma ResponseIsLast(n: nat)
    requires 0 < n <= |Stages| && Stages[n - 1] == ToResponse
    ensures Stages[..n] == Stages
  {
  }

  /** The response RunFunction returns: at most one (Fatal) result, and the desired composite. */
  datatype Response = Response(fatal: Option<Error>, desired: Composite.Desired)

  /** RunFunction returns a response and an error, having run some steps; or it panics. */
  datatype Outcome =
    | Returned(rsp: Response, err: Option<Error>, ran: seq<Stage>)
    | Panicked(ran: seq<Stage>)

  function InitialCtx(req: Request, spec: Spec, observed: map<string, string>): Ctx {
    Ctx(spec, observed, req.name, req.namespace, "", "", "", None, req.desired)
  }

  /** RunFunction under a given revision. The response starts as a copy of the
      request (response.To); a Fatal result leaves its desired composite as the
      request had it, and only a completed run hands back the patched one. */
  function Run(req: Request, env: Env, rev: Revision): (o: Outcome)
    ensures |o.ran| <= |Stages| && o.ran == Stages[..|o.ran|]
    ensures o.Returned? && o.rsp.fatal.None? ==> o.ran == Stages && o.err.None?
    ensures o.Returned? && o.rsp.fatal.Some? ==> o.rsp.desired == req.desired
    ensures o.Returned? && o.err.Some? ==>
      o.ran == Stages && o.rsp.fatal == Some(Wrapf("cannot convert composition to response %T", ResponseType, o.err.value))
    ensures req.observed.Fail? ==>
      o == Returned(Response(Some(Wrap("cannot get observed composite resource", req.observed.error)), req.desired), None, [])
    ensures req.observed.Ok? && req.input.Fail? ==>
      o == Returned(Response(Some(Wrap("error setting up function " + ComposedName, req.input.error)), req.desired), None, [])
    ensures req.observed.Ok? && req.input == Ok(None) ==> o == Returned(Response(Some(MissingSpec), req.desired), None, [])
    ensures o.Panicked? ==> o.ran == Stages[..7]
  {
    match req.observed
    case Fail(e) => Returned(Response(Some(Wrap("cannot get observed composite resource", e)), req.desired), None, [])
    case Ok(observed) =>
      match req.input
      case Fail(e) => Returned(Response(Some(Wrap("error setting up function " + ComposedName, e)), req.desired), None, [])
      case Ok(None) => Returned(Response(Some(MissingSpec), req.desired), None, [])
      case Ok(Some(spec)) =>
        var c := InitialCtx(req, spec, observed);
        StepsEndings(env, rev, c);
        Finish(req, Fold(Steps(env, rev), Stages, c))
  }

  /** Only ToResponse returns an error, and only GenerateKeysFile panics. */
  lemma StepsEndings(env: Env, rev: Revision, c: Ctx)
    ensures var w := Fold(Steps(env, rev), Stages, c);
      && (w.Stopped? && w.returned.Some? ==>
            w.trace == Stages && w.error == Wrapf("cannot convert composition to response %T", ResponseType, w.returned.value))
      && (w.Crashed? ==> w.trace == Stages[..7])
  {
    var w := Fold(Steps(env, rev), Stages, c);
    FoldEnding(Steps(env, rev), Stages, c);
    if w.Stopped? && w.returned.Some? {
      ResponseIsLast(|w.trace|);
    } else if w.Crashed? {
      KeysFileIsSeventh(|w.trace|);
    }
  }

  /** The response for a run of the steps: a completed run hands back the
      patched desired composite, a stopped one a Fatal result. */
  function Finish(req: Request, w: Walk): Outcome {
    match w
    case Completed(c, trace) => Returned(Response(None, c.desired), None, trace)
    case Stopped(_, e, ret, trace) => Returned(Response(Some(e), req.desired), ret, trace)
    case Crashed(_, trace) => Panicked(trace)
  }

  /** RunFunction as written. */
  function RunFunction(req: Request, env: Env): Outcome {
    Run(req, env, AsWritten)
  }

  /** RunFunction with the signing-key error checked. */
  function RunFunctionChecked(req: Request, env: Env): Outcome {
    Run(req, env, KeyErrorChecked)
  }

  // ---------------------------------------------------------------------------
  // When a run completes, and what it hands back

  /** The steps before the signing key is fetched, and the steps from there on. */
  const Head: seq<Stage> := [ResolveRegion, ResolveProviderConfig, ResolveDomain, DiscoverHostedZone, GenerateDiscoveryFile]

  const Tail: seq<Stage> := [FetchSigningKey, GenerateKeysFile, ToResponse]

  lemma HeadTail()
    ensures Stages == Head + Tail && Stages[..5] == Head
    ensures FetchSigningKey !in Head && GenerateKeysFile !in Head
  {
  }

  /** Every run splits at the signing-key step: the first five steps either
      end the run or hand their state to the last three. */
  lemma SplitAtSigningKey(exec: (Stage, Ctx) -> Step, c: Ctx)
    ensures var w := Fold(exec, Head, c);
      Fold(exec, Stages, c) == if w.Completed? then Prepend(Head, Fold(exec, Tail, w.ctx)) else w
    ensures var w := Fold(exec, Head, c);
      FetchSigningKey !in w.trace && GenerateKeysFile !in w.trace
  {
    HeadTail();
    var w := Fold(exec, Head, c);
    if w.Completed? {
      FoldGoesOn(exec, Head, Tail, c);
    } else {
      FoldStopsEarly(exec, Head, Tail, c);
    }
    assert w.trace == Head[..|w.trace|];
    assert forall i :: 0 <= i < |w.trace| ==> w.trace[i] in Head;
  }

  predicate Resolvable(c: Ctx) {
    c.spec.regionRef in c.observed && c.spec.providerConfigRef in c.observed && c.spec.domainRef in c.observed
  }

  /** The state after the three references are resolved. */
  function Resolved(c: Ctx): Ctx
    requires c.spec.regionRef in c.observed && c.spec.providerConfigRef in c.observed && c.spec.domainRef in c.observed
  {
    c.(region := c.observed[c.spec.regionRef],
       providerConfig := c.observed[c.spec.providerConfigRef],
       domain := c.observed[c.spec.domainRef])
  }

  /** What hosted-zone discovery decides in a resolved state. */
  function ZoneAction(env: Env, c: Ctx): Aws.Action {
    Aws.DiscoverHostedZone(c.domain, c.region, env.hostedZones(c.region, c.providerConfig), c.spec.route53HostedZonePatchToRef)
  }

  /** When the hosted-zone and discovery-file steps both carry on from a resolved state. */
  predicate PatchOk(env: Env, r: Ctx) {
    && ZoneAction(env, r).Patch?
    && r.spec.route53HostedZonePatchToRef !in env.rejectedPaths
    && r.spec.s3DiscoveryPatchToRef !in env.rejectedPaths
  }

  /** The state those two steps leave: the hosted zone id and then the
      discovery file written to the desired composite. */
  function Patched(env: Env, r: Ctx): Ctx
    requires PatchOk(env, r)
  {
    var a := ZoneAction(env, r);
    var doc := S3.GenerateDiscoveryFile(r.domain, r.name, r.region);
    r.(desired := r.desired[a.path := Composite.Text(a.value)][r.spec.s3DiscoveryPatchToRef := Composite.DiscoveryJson(doc)])
  }

  /** When the first five steps all carry on. */
  predicate HeadOk(env: Env, c: Ctx) {
    Resolvable(c) && PatchOk(env, Resolved(c))
  }

  /** The three resolving steps complete exactly when all three references
      are present, and then set region, provider config and domain. */
  lemma ResolveStepsSucceed(env: Env, rev: Revision, c: Ctx)
    ensures var w := Fold(Steps(env, rev), Head[..3], c);
      (w.Completed? <==> Resolvable(c)) && (w.Completed? ==> w.ctx == Resolved(c))
  {
    var exec := Steps(env, rev);
    var h := Head[..3];
    assert h == [ResolveRegion, ResolveProviderConfig, ResolveDomain];
    ResolveStep(env, rev, c);
    if c.spec.regionRef in c.observed {
      var c1 := Exec(env, rev, ResolveRegion, c).ctx;
      FoldNext(exec, h, c);
      assert h[1..] == [ResolveProviderConfig, ResolveDomain];
      ResolveStep(env, rev, c1);
      if c.spec.providerConfigRef in c.observed {
        var c2 := Exec(env, rev, ResolveProviderConfig, c1).ctx;
        FoldNext(exec, h[1..], c1);
        assert h[1..][1..] == [ResolveDomain];
        ResolveStep(env, rev, c2);
        FoldOne(exec, ResolveDomain, c2);
      }
    }
  }

  /** The hosted-zone and discovery-file steps complete exactly when one
      hosted zone matches and neither patch is refused. */
  lemma PatchStepsSucceed(env: Env, rev: Revision, r: Ctx)
    ensures var w := Fold(Steps(env, rev), Head[3..], r);
      (w.Completed? <==> PatchOk(env, r)) && (w.Completed? ==> w.ctx == Patched(env, r))
  {
    var exec := Steps(env, rev);
    var h := Head[3..];
    assert h == [DiscoverHostedZone, GenerateDiscoveryFile];
    ZoneStep(env, rev, r);
    var s := Exec(env, rev, DiscoverHostedZone, r);
    if s.Next? {
      FoldNext(exec, h, r);
      assert h[1..] == [GenerateDiscoveryFile];
      DiscoveryStep(env, rev, s.ctx);
      FoldOne(exec, GenerateDiscoveryFile, s.ctx);
    }
  }

  /** The first five steps complete exactly when the references resolve,
      exactly one hosted zone matches and neither patch is refused. */
  lemma HeadSucceeds(env: Env, rev: Revision, c: Ctx)
    ensures Fold(Steps(env, rev), Head, c).Completed? <==> HeadOk(env, c)
    ensures HeadOk(env, c) ==> Fold(Steps(env, rev), Head, c).ctx == Patched(env, Resolved(c))
  {
    var exec := Steps(env, rev);
    assert Head == Head[..3] + Head[3..];
    ResolveStepsSucceed(env, rev, c);
    var w := Fold(exec, Head[..3], c);
    if w.Completed? {
      FoldGoesOn(exec, Head[..3], Head[3..], c);
      PatchStepsSucceed(env, rev, w.ctx);
    } else {
      FoldStopsEarly(exec, Head[..3], Head[3..], c);
    }
  }

  /** When the last three steps all carry on. */
  predicate TailOk(env: Env, c: Ctx) {
    && env.serviceAccountSecret(c.namespace, c.name).Ok?
    && S3.GenerateKeysFile(env.crypto, env.serviceAccountSecret(c.namespace, c.name).value).Ok?
    && c.spec.s3KeysPatchToRef !in env.rejectedPaths
    && env.toResponse.None?
  }

  /** The keys-file and response steps, once a key is held. */
  lemma KeysAndResponseSucceed(env: Env, rev: Revision, c: Ctx, k: S3.PrivateKey)
    requires c.key == Some(k)
    ensures var w := Fold(Steps(env, rev), Tail[1..], c);
      var ks := S3.GenerateKeysFile(env.crypto, k);
      && (w.Completed? <==> ks.Ok? && c.spec.s3KeysPatchToRef !in env.rejectedPaths && env.toResponse.None?)
      && (w.Completed? ==> w.ctx.desired == c.desired[c.spec.s3KeysPatchToRef := Composite.KeysJson(ks.value)])
  {
    var exec := Steps(env, rev);
    var h := Tail[1..];
    assert h == [GenerateKeysFile, ToResponse];
    KeysFileStep(env, rev, c, k);
    var s6 := Exec(env, rev, GenerateKeysFile, c);
    if s6.Next? {
      FoldNext(exec, h, c);
      assert h[1..] == [ToResponse];
      ResponseStep(env, rev, s6.ctx);
      FoldOne(exec, ToResponse, s6.ctx);
    }
  }

  /** The last three steps complete exactly when the key is fetched, the keys
      file is generated and accepted, and the response is built; they then
      leave the keys file written to the desired composite. */
  lemma TailSucceeds(env: Env, rev: Revision, c: Ctx)
    ensures Fold(Steps(env, rev), Tail, c).Completed? <==> TailOk(env, c)
    ensures TailOk(env, c) ==>
      var k := env.serviceAccountSecret(c.namespace, c.name).value;
      var ks := S3.GenerateKeysFile(env.crypto, k).value;
      Fold(Steps(env, rev), Tail, c).ctx.desired == c.desired[c.spec.s3KeysPatchToRef := Composite.KeysJson(ks)]
  {
    var exec := Steps(env, rev);
    var secret := env.serviceAccountSecret(c.namespace, c.name);
    if secret.Ok? {
      KeyStep(env, rev, c);
      var c6 := c.(key := Some(secret.value));
      FoldNext(exec, Tail, c);
      KeysAndResponseSucceed(env, rev, c6, secret.value);
    } else if rev == AsWritten {
      TailPanics(env, c);
    } else {
      CheckedTailStops(env, c);
    }
  }

  /** When RunFunction completes without a Fatal result: the observed composite
      and the input are read, and every step carries on. */
  predicate Completes(req: Request, env: Env) {
    && req.observed.Ok? && req.input.Ok? && req.input.value.Some?
    && var c := InitialCtx(req, req.input.value.value, req.observed.value);
       HeadOk(env, c) && TailOk(env, Patched(env, Resolved(c)))
  }

  /** The desired composite a completed run hands back, stated from the inputs:
      the request's desired composite with the hosted zone id, then the
      discovery file, then the keys file written at their field paths. */
  function CompletedDesired(req: Request, env: Env): Composite.Desired
    requires Completes(req, env)
  {
    var spec, observed := req.input.value.value, req.observed.value;
    var region, domain := observed[spec.regionRef], observed[spec.domainRef];
    var zone := Aws.DiscoverHostedZone(domain, region, env.hostedZones(region, observed[spec.providerConfigRef]),
                                       spec.route53HostedZonePatchToRef);
    var key := env.serviceAccountSecret(req.namespace, req.name).value;
    req.desired[spec.route53HostedZonePatchToRef := Composite.Text(zone.value)]
               [spec.s3DiscoveryPatchToRef := Composite.DiscoveryJson(S3.GenerateDiscoveryFile(domain, req.name, region))]
               [spec.s3KeysPatchToRef := Composite.KeysJson(S3.GenerateKeysFile(env.crypto, key).value)]
  }

  /** The whole fold completes exactly when both halves do, and then leaves
      the three patches applied. */
  lemma FoldCompletes(env: Env, rev: Revision, c: Ctx)
    ensures var w := Fold(Steps(env, rev), Stages, c);
      w.Completed? <==> HeadOk(env, c) && TailOk(env, Patched(env, Resolved(c)))
    ensures HeadOk(env, c) && TailOk(env, Patched(env, Resolved(c))) ==>
      var w := Fold(Steps(env, rev), Stages, c);
      var d := Patched(env, Resolved(c));
      var k := env.serviceAccountSecret(c.namespace, c.name).value;
      w.Completed? && w.ctx.desired == d.desired[c.spec.s3KeysPatchToRef := Composite.KeysJson(S3.GenerateKeysFile(env.crypto, k).value)]
  {
    var exec := Steps(env, rev);
    SplitAtSigningKey(exec, c);
    HeadSucceeds(env, rev, c);
    var w := Fold(exec, Head, c);
    if w.Completed? {
      TailSucceeds(env, rev, w.ctx);
      HeadTail();
    }
  }

  /** A run returns without a Fatal result exactly when every step carries on,
      under either revision, and then hands back the three patches applied to
      the request's desired composite and nothing else. */
  lemma RunCompletes(req: Request, env: Env, rev: Revision)
    ensures var o := Run(req, env, rev); o.Returned? && o.rsp.fatal.None? <==> Completes(req, env)
    ensures Completes(req, env) ==> Run(req, env, rev) == Returned(Response(None, CompletedDesired(req, env)), None, Stages)
  {
    if req.observed.Ok? && req.input.Ok? && req.input.value.Some? {
      var exec := Steps(env, rev);
      var c0 := InitialCtx(req, req.input.value.value, req.observed.value);
      assert Run(req, env, rev) == Finish(req, Fold(exec, Stages, c0));
      FoldCompletes(env, rev, c0);
    }
  }

  /** An unresolvable domain reference stops the run at the third step, and
      the message names the region reference (fn.go:64-67). */
  lemma DomainFailureIsFatal(req: Request, env: Env, rev: Revision)
    requires req.observed.Ok? && req.input.Ok? && req.input.value.Some?
    requires var spec := req.input.value.value;
      spec.regionRef in req.observed.value && spec.providerConfigRef in req.observed.value
      && spec.domainRef !in req.observed.value
    ensures var spec := req.input.value.value;
      Run(req, env, rev) ==
        Returned(Response(Some(Wrapf("cannot get region from %q", spec.regionRef, NoSuchField(spec.domainRef))), req.desired),
                 None, Stages[..3])
  {
    var spec, observed := req.input.value.value, req.observed.value;
    var exec := Steps(env, rev);
    var c0 := InitialCtx(req, spec, observed);
    var c1 := c0.(region := observed[spec.regionRef]);
    var c2 := c1.(providerConfig := observed[spec.providerConfigRef]);
    var e := Wrapf("cannot get region from %q", spec.regionRef, NoSuchField(spec.domainRef));
    assert exec(ResolveRegion, c0) == Next(c1);
    assert exec(ResolveProviderConfig, c1) == Next(c2);
    assert exec(ResolveDomain, c2) == Fatal(e, None);
    assert Stages[1..][0] == ResolveProviderConfig && Stages[1..][1..][0] == ResolveDomain;
    FoldNext(exec, Stages, c0);
    FoldNext(exec, Stages[1..], c1);
    assert Fold(exec, Stages[1..][1..], c2) == Stopped(c2, e, None, [ResolveDomain]);
    assert [ResolveRegion] + ([ResolveProviderConfig] + [ResolveDomain]) == Stages[..3];
  }

  /** The steps stop in a state that still holds the spec, the observed
      composite and the identity they started from, at a step that gives
      the recorded Fatal result there. */
  lemma FoldStopsWithStepError(env: Env, rev: Revision, c0: Ctx)
    ensures var w := Fold(Steps(env, rev), Stages, c0);
      w.Stopped? ==>
        && w.at.spec == c0.spec && w.at.observed == c0.observed
        && w.at.name == c0.name && w.at.namespace == c0.namespace
        && Exec(env, rev, w.trace[|w.trace| - 1], w.at) == Fatal(w.error, w.returned)
  {
    FoldEnding(Steps(env, rev), Stages, c0);
    FoldKeepsIdentity(env, rev, Stages, c0);
  }

  /** A run that a step stops hands back that step's Fatal message, as the
      step computes it in a state that still holds the request's spec,
      observed composite, name and namespace. */
  lemma RunStopsWithStepError(req: Request, env: Env, rev: Revision)
    ensures var o := Run(req, env, rev);
      o.Returned? && o.rsp.fatal.Some? && |o.ran| > 0 ==>
        && req.observed.Ok? && req.input.Ok? && req.input.value.Some?
        && exists c: Ctx ::
             && c.spec == req.input.value.value && c.observed == req.observed.value
             && c.name == req.name && c.namespace == req.namespace
             && Exec(env, rev, o.ran[|o.ran| - 1], c) == Fatal(o.rsp.fatal.value, o.err)
  {
    var o := Run(req, env, rev);
    if o.Returned? && o.rsp.fatal.Some? && |o.ran| > 0 {
      var c0 := InitialCtx(req, req.input.value.value, req.observed.value);
      var w := Fold(Steps(env, rev), Stages, c0);
      assert o == Finish(req, w);
      FoldStopsWithStepError(env, rev, c0);
      assert Exec(env, rev, o.ran[|o.ran| - 1], w.at) == Fatal(o.rsp.fatal.value, o.err);
    }
  }

  /** From a resolved state, a hosted-zone discovery that aborts stops the
      remaining steps at once, with its error under the domain. */
  lemma ZoneAbortStopsRest(env: Env, rev: Revision, r: Ctx)
    requires ZoneAction(env, r).Abort?
    ensures Fold(Steps(env, rev), Stages[3..], r) ==
      Stopped(r, Wrapf("cannot discover hosted zone for domain %q", r.domain, ZoneAction(env, r).error), None, [DiscoverHostedZone])
  {
    var e := Wrapf("cannot discover hosted zone for domain %q", r.domain, ZoneAction(env, r).error);
    assert Steps(env, rev)(DiscoverHostedZone, r) == Fatal(e, None);
    assert Stages[3..][0] == DiscoverHostedZone;
  }

  /** A hosted-zone discovery that aborts after the references resolve stops
      the steps at the fourth, with its error under the domain. */
  lemma ZoneAbortStops(env: Env, rev: Revision, c0: Ctx)
    requires Resolvable(c0)
    ensures var r := Resolved(c0);
      var a := ZoneAction(env, r);
      a.Abort? ==>
        Fold(Steps(env, rev), Stages, c0) ==
          Stopped(r, Wrapf("cannot discover hosted zone for domain %q", r.domain, a.error), None, Stages[..4])
  {
    var r := Resolved(c0);
    if ZoneAction(env, r).Abort? {
      var exec := Steps(env, rev);
      ResolveStepsSucceed(env, rev, c0);
      assert Stages == Head[..3] + Stages[3..];
      FoldGoesOn(exec, Head[..3], Stages[3..], c0);
      ZoneAbortStopsRest(env, rev, r);
      assert Head[..3] + [DiscoverHostedZone] == Stages[..4];
    }
  }

  /** The hosted-zone step's error reaches the response: a discovery that
      aborts stops the run at the fourth step with its error under the
      domain (fn.go:70-72). */
  lemma ZoneFailureIsFatal(req: Request, env: Env, rev: Revision)
    requires req.observed.Ok? && req.input.Ok? && req.input.value.Some?
    requires Resolvable(InitialCtx(req, req.input.value.value, req.observed.value))
    ensures var r := Resolved(InitialCtx(req, req.input.value.value, req.observed.value));
      var a := ZoneAction(env, r);
      a.Abort? ==>
        Run(req, env, rev) ==
          Returned(Response(Some(Wrapf("cannot discover hosted zone for domain %q", r.domain, a.error)), req.desired),
                   None, Stages[..4])
  {
    var c0 := InitialCtx(req, req.input.value.value, req.observed.value);
    ZoneAbortStops(env, rev, c0);
    assert Run(req, env, rev) == Finish(req, Fold(Steps(env, rev), Stages, c0));
  }

  /** No matching hosted zone (aws.go:175) and several (aws.go:180) end the
      run with those messages under the domain. */
  lemma ZoneCountIsFatal(req: Request, env: Env, rev: Revision)
    requires req.observed.Ok? && req.input.Ok? && req.input.value.Some?
    requires Resolvable(InitialCtx(req, req.input.value.value, req.observed.value))
    ensures var r := Resolved(InitialCtx(req, req.input.value.value, req.observed.value));
      var zones := env.hostedZones(r.region, r.providerConfig);
      zones.Listed? && |Aws.MatchingZones(zones.items, r.domain)| == 0 ==>
        Run(req, env, rev) ==
          Returned(Response(Some(Wrapf("cannot discover hosted zone for domain %q", r.domain,
                                       New("no hosted zone found matching the domain: " + r.domain))), req.desired),
                   None, Stages[..4])
    ensures var r := Resolved(InitialCtx(req, req.input.value.value, req.observed.value));
      var zones := env.hostedZones(r.region, r.providerConfig);
      zones.Listed? && |Aws.MatchingZones(zones.items, r.domain)| > 1 ==>
        Run(req, env, rev) ==
          Returned(Response(Some(Wrapf("cannot discover hosted zone for domain %q", r.domain,
                                       New("multiple hosted zones found matching the domain: " + r.domain))), req.desired),
                   None, Stages[..4])
  {
    ZoneFailureIsFatal(req, env, rev);
  }

  // ---------------------------------------------------------------------------
  // The unchecked signing-key error (fn.go:80-82)

  /** As written, the last three steps after a failed secret fetch: the key
      stays nil and GenerateKeysFile panics. */
  lemma TailPanics(env: Env, c: Ctx)
    requires env.serviceAccountSecret(c.namespace, c.name).Fail?
    ensures Fold(Steps(env, AsWritten), Tail, c) == Crashed(c.(key := None), [FetchSigningKey, GenerateKeysFile])
  {
    var exec := Steps(env, AsWritten);
    var c6 := c.(key := None);
    SecretFailureDropsKey(env, c);
    NilKeyPanics(env, AsWritten, c6);
    assert Tail[0] == FetchSigningKey && Tail[1..] == [GenerateKeysFile, ToResponse];
    FoldNext(exec, Tail, c);
    var rest := [GenerateKeysFile, ToResponse];
    assert Fold(exec, rest, c6) == Crashed(c6, [GenerateKeysFile]) by {
      assert rest[0] == GenerateKeysFile;
    }
    assert Prepend([FetchSigningKey], Crashed(c6, [GenerateKeysFile])) == Crashed(c6, [FetchSigningKey, GenerateKeysFile]);
  }

  /** As written: once the service-account secret cannot be fetched, a run
      that reaches the signing-key step goes on to GenerateKeysFile with a nil
      key and panics (fn.go:80-89). */
  lemma SigningKeyErrorPanics(req: Request, env: Env)
    requires env.serviceAccountSecret(req.namespace, req.name).Fail?
    ensures var o := RunFunction(req, env);
      FetchSigningKey in o.ran ==> o == Panicked(Stages[..7])
  {
    if req.observed.Ok? && req.input.Ok? && req.input.value.Some? {
      var exec := Steps(env, AsWritten);
      var c0 := InitialCtx(req, req.input.value.value, req.observed.value);
      assert RunFunction(req, env) == Finish(req, Fold(exec, Stages, c0));
      SplitAtSigningKey(exec, c0);
      var w := Fold(exec, Head, c0);
      if w.Completed? {
        FoldKeepsIdentity(env, AsWritten, Head, c0);
        TailPanics(env, w.ctx);
        assert Head + [FetchSigningKey, GenerateKeysFile] == Stages[..7];
      }
    }
  }

  /** With the signing-key error checked, the last three steps after a failed
      secret fetch stop at the first of them. */
  lemma CheckedTailStops(env: Env, c: Ctx)
    requires env.serviceAccountSecret(c.namespace, c.name).Fail?
    ensures Fold(Steps(env, KeyErrorChecked), Tail, c) ==
      Stopped(c, Wrapf("cannot get service account signing key for domain %q", c.domain,
                       env.serviceAccountSecret(c.namespace, c.name).error), None, [FetchSigningKey])
  {
    var exec := Steps(env, KeyErrorChecked);
    CheckedSecretFailureStops(env, c);
    assert Tail[0] == FetchSigningKey;
    assert exec(Tail[0], c).Fatal?;
  }

  /** The fold behind the lemma above: the first five steps complete, and the
      signing-key step stops the run naming the resolved domain. */
  lemma CheckedFoldStopsAtKey(env: Env, c: Ctx)
    requires HeadOk(env, c) && env.serviceAccountSecret(c.namespace, c.name).Fail?
    ensures Fold(Steps(env, KeyErrorChecked), Stages, c) ==
      Stopped(Patched(env, Resolved(c)),
              Wrapf("cannot get service account signing key for domain %q", c.observed[c.spec.domainRef],
                    env.serviceAccountSecret(c.namespace, c.name).error),
              None, Stages[..6])
  {
    var exec := Steps(env, KeyErrorChecked);
    var d := Patched(env, Resolved(c));
    HeadSucceeds(env, KeyErrorChecked, c);
    assert Fold(exec, Head, c) == Completed(d, Head);
    SplitAtSigningKey(exec, c);
    assert d.namespace == c.namespace && d.name == c.name && d.domain == c.observed[c.spec.domainRef];
    var e := Wrapf("cannot get service account signing key for domain %q", d.domain,
                   env.serviceAccountSecret(c.namespace, c.name).error);
    CheckedTailStops(env, d);
    assert Fold(exec, Tail, d) == Stopped(d, e, None, [FetchSigningKey]);
    HeadTail();
    assert Head + [FetchSigningKey] == Stages[..6];
  }

  /** With the signing-key error checked, a run that reaches the signing-key
      step and cannot fetch the secret stops there with a Fatal result that
      wraps the fetch error. */
  lemma CheckedRunReportsSigningKeyError(req: Request, env: Env)
    requires env.serviceAccountSecret(req.namespace, req.name).Fail?
    ensures var o := RunFunctionChecked(req, env);
      FetchSigningKey in o.ran ==>
        && req.observed.Ok? && req.input.Ok? && req.input.value.Some?
        && var domainRef := req.input.value.value.domainRef;
           && domainRef in req.observed.value
           && o == Returned(Response(Some(Wrapf("cannot get service account signing key for domain %q", req.observed.value[domainRef],
                                                env.serviceAccountSecret(req.namespace, req.name).error)), req.desired),
                            None, Stages[..6])
  {
    if req.observed.Ok? && req.input.Ok? && req.input.value.Some? {
      var exec := Steps(env, KeyErrorChecked);
      var c0 := InitialCtx(req, req.input.value.value, req.observed.value);
      assert RunFunctionChecked(req, env) == Finish(req, Fold(exec, Stages, c0));
      SplitAtSigningKey(exec, c0);
      HeadSucceeds(env, KeyErrorChecked, c0);
      if HeadOk(env, c0) {
        CheckedFoldStopsAtKey(env, c0);
      }
    }
  }

  /** With the signing-key error checked, the last three steps never panic. */
  lemma CheckedTailNeverPanics(env: Env, c: Ctx)
    ensures !Fold(Steps(env, KeyErrorChecked), Tail, c).Crashed?
  {
    var exec := Steps(env, KeyErrorChecked);
    var s5 := exec(FetchSigningKey, c);
    if s5.Next? {
      assert s5.ctx.key.Some?;
      FoldNext(exec, Tail, c);
      var s6 := exec(GenerateKeysFile, s5.ctx);
      if s6.Next? {
        FoldNext(exec, Tail[1..], s5.ctx);
        assert !exec(ToResponse, s6.ctx).Panic?;
      }
    }
  }

  /** With the signing-key error checked, no run panics. */
  lemma CheckedRunNeverPanics(req: Request, env: Env)
    ensures !RunFunctionChecked(req, env).Panicked?
  {
    if req.observed.Ok? && req.input.Ok? && req.input.value.Some? {
      var exec := Steps(env, KeyErrorChecked);
      var c0 := InitialCtx(req, req.input.value.value, req.observed.value);
      assert RunFunctionChecked(req, env) == Finish(req, Fold(exec, Stages, c0));
      SplitAtSigningKey(exec, c0);
      var w := Fold(exec, Head, c0);
      if w.Completed? {
        CheckedTailNeverPanics(env, w.ctx);
      }
    }
  }

  /** A composite that names all its references, for the scenario below. */
  const ScenarioSpec: Spec := Spec("spec.domain", "status.zoneId", "status.keys", "spec.bucket",
                                   "status.discovery", "spec.region", "spec.providerConfig")

  function ScenarioRequest(): Request {
    Request(Ok(map["spec.region" := "eu-west-1", "spec.providerConfig" := "default", "spec.domain" := "example.com"]),
            Ok(Some(ScenarioSpec)), map[], "irsa", "team-a")
  }

  /** One hosted zone matches the domain, but the service-account secret is missing. */
  function ScenarioEnv(crypto: S3.Crypto): Env {
    Env((region, providerConfig) => Aws.Listed([Aws.HostedZone("/hostedzone/Z0123", "example.com.")]),
        (namespace, name) => Fail(New("secret not found")),
        crypto, {}, None)
  }

  /** The scenario's first five steps complete: every reference resolves,
      the one hosted zone matches and both patches are accepted. */
  lemma ScenarioReachesSigningKey(crypto: S3.Crypto, rev: Revision)
    ensures Fold(Steps(ScenarioEnv(crypto), rev), Head, InitialCtx(ScenarioRequest(), ScenarioSpec, ScenarioRequest().observed.value)).Completed?
  {
    var req, env := ScenarioRequest(), ScenarioEnv(crypto);
    var c0 := InitialCtx(req, ScenarioSpec, req.observed.value);
    assert Resolvable(c0);
    var r := Resolved(c0);
    assert r.domain == "example.com";
    Aws.SingleZoneScenario(r.region, ScenarioSpec.route53HostedZonePatchToRef);
    HeadSucceeds(env, rev, c0);
  }

  /** As written, the scenario resolves every reference, patches the hosted
      zone and the discovery file, and then panics on the nil key. */
  lemma SigningKeyPanicScenario(crypto: S3.Crypto)
    ensures RunFunction(ScenarioRequest(), ScenarioEnv(crypto)) == Panicked(Stages[..7])
  {
    var req, env := ScenarioRequest(), ScenarioEnv(crypto);
    var c0 := InitialCtx(req, ScenarioSpec, req.observed.value);
    ScenarioReachesSigningKey(crypto, AsWritten);
    SplitAtSigningKey(Steps(env, AsWritten), c0);
    HeadTail();
    SigningKeyErrorPanics(req, env);
    assert FetchSigningKey in Head + [FetchSigningKey];
  }

  /** With the error checked, the same scenario stops with a Fatal result at the signing-key step. */
  lemma CheckedScenarioIsFatal(crypto: S3.Crypto)
    ensures var o := RunFunctionChecked(ScenarioRequest(), ScenarioEnv(crypto));
      o.Returned? && o.ran == Stages[..6] && o.rsp.fatal.Some? && o.err.None?
  {
    var req, env := ScenarioRequest(), ScenarioEnv(crypto);
    var c0 := InitialCtx(req, ScenarioSpec, req.observed.value);
    ScenarioReachesSigningKey(crypto, KeyErrorChecked);
    SplitAtSigningKey(Steps(env, KeyErrorChecked), c0);
    HeadTail();
    CheckedRunReportsSigningKeyError(req, env);
    assert FetchSigningKey in Head + [FetchSigningKey];
  }
}

=== FILE: s3.dfy ===
/** The two documents the function publishes for IRSA (s3.go): the OpenID
    Connect discovery document, in the self-hosted layout of the EKS
    pod-identity-webhook (a subset of section 3 of OpenID Connect Discovery
    1.0), and the JSON Web Key Set holding the service-account signing key.
    Documents are records; their JSON byte form is not modelled. */
module S3 {
  import opened Errors
  import GoStrings
  import Base64Url

  // ---------------------------------------------------------------------------
  // Partition and discovery document

  /** The China partition is recognised by the region's "cn-" prefix. */
  function IsChina(region: string): (china: bool)
    ensures china <==> |region| >= 3 && region[0] == 'c' && region[1] == 'n' && region[2] == '-'
  {
    GoStrings.HasPrefix(region, "cn-")
  }

  /** The partition's service domain. */
  function AWSEndpoint(region: string): (endpoint: string)
    ensures IsChina(region) ==> endpoint == "amazonaws.com.cn"
    ensures !IsChina(region) ==> endpoint == "amazonaws.com"
  {
    var awsEndpoint := "amazonaws.com";
    if GoStrings.HasPrefix(region, "cn-") then "amazonaws.com.cn" else awsEndpoint
  }

  datatype DiscoveryDocument = DiscoveryDocument(
    issuer: string,
    authorizationEndpoint: string,
    jwksUri: string,
    responseTypesSupported: seq<string>,
    subjectTypesSupported: seq<string>,
    idTokenSigningAlgValuesSupported: seq<string>,
    claimsSupported: seq<string>)

  const KeysFileSuffix: string := "/keys.json"

  /** The field values of GenerateDiscoveryFile: outside China the issuer is
      the domain behind CloudFront; in China it is the bucket on the public S3
      endpoint. The keys document always sits next to the issuer. */
  function GenerateDiscoveryFile(domain: string, bucketName: string, region: string): (doc: DiscoveryDocument)
    ensures doc.authorizationEndpoint == "urn:kubernetes:programmatic_authorization"
    ensures doc.responseTypesSupported == ["id_token"]
    ensures doc.subjectTypesSupported == ["public"]
    ensures doc.idTokenSigningAlgValuesSupported == ["RS256"]
    ensures doc.claimsSupported == ["sub", "iss"]
    ensures !IsChina(region) ==> doc.issuer == "https://" + domain
    ensures IsChina(region) ==> doc.issuer == "https://s3." + region + ".amazonaws.com.cn/" + bucketName
    ensures doc.jwksUri == doc.issuer + KeysFileSuffix
  {
    var v := DiscoveryDocument(
      "", "urn:kubernetes:programmatic_authorization", "",
      ["id_token"], ["public"], ["RS256"], ["sub", "iss"]);
    if !IsChina(region) then
      v.(issuer := "https://" + domain, jwksUri := "https://" + domain + "/keys.json")
    else
      v.(issuer := "https://s3." + region + "." + AWSEndpoint(region) + "/" + bucketName,
         jwksUri := "https://s3." + region + "." + AWSEndpoint(region) + "/" + bucketName + "/keys.json")
  }

  /** Outside China the bucket name plays no part in the document. */
  lemma BucketUnusedOutsideChina(domain: string, bucket1: string, bucket2: string, region: string)
    requires !IsChina(region)
    ensures GenerateDiscoveryFile(domain, bucket1, region) == GenerateDiscoveryFile(domain, bucket2, region)
  {
  }

  /** In China the domain plays no part in the document. */
  lemma DomainUnusedInChina(domain1: string, domain2: string, bucketName: string, region: string)
    requires IsChina(region)
    ensures GenerateDiscoveryFile(domain1, bucketName, region) == GenerateDiscoveryFile(domain2, bucketName, region)
  {
  }

  /** The issuer of a China-partition document for region cn-northwest-1 and bucket my-bucket. */
  lemma ChinaIssuerScenario(domain: string)
    ensures GenerateDiscoveryFile(domain, "my-bucket", "cn-northwest-1").issuer
         == "https://s3.cn-northwest-1.amazonaws.com.cn/my-bucket"
  {
    assert IsChina("cn-northwest-1");
    assert "https://s3." + "cn-northwest-1" + ".amazonaws.com.cn/" + "my-bucket"
        == "https://s3.cn-northwest-1.amazonaws.com.cn/my-bucket";
  }

  /** cn-north-1 selects the object-storage address, us-east-1 the CloudFront one. */
  lemma PartitionScenarios(domain: string, bucketName: string)
    ensures GenerateDiscoveryFile(domain, bucketName, "cn-north-1").issuer
         == "https://s3." + "cn-north-1" + ".amazonaws.com.cn/" + bucketName
    ensures GenerateDiscoveryFile(domain, bucketName, "us-east-1").issuer == "https://" + domain
  {
    assert IsChina("cn-north-1");
    assert !IsChina("us-east-1");
  }

  // ---------------------------------------------------------------------------
  // Key identifier and key set

  type byte = Base64Url.byte

  /** A SHA-256 digest: 32 bytes. */
  type Digest = s: seq<byte> | |s| == 32 witness [0,0,0,0,0,0,0,0,0,0,0,0,0,0,0,0,0,0,0,0,0,0,0,0,0,0,0,0,0,0,0,0]

  datatype PublicKey = PublicKey(modulus: nat, exponent: nat)

  datatype PrivateKey = PrivateKey(publicKey: PublicKey, privateExponent: nat)

  /** The cryptographic library, taken as given: x509.MarshalPKIXPublicKey
      (which may fail) and SHA-256. */
  datatype Crypto = Crypto(marshalPkix: PublicKey -> Result<seq<byte>>, sha256: seq<byte> -> Digest)

  /** The DER serialisation failed: the error digestOfKey reports. */
  function DerError(cause: Error): Error {
    Errorf("failed to serialize public key to DER format: %v", cause)
  }

  /** digestOfKey: the unpadded base64url form of SHA-256 over the DER-encoded public key. */
  function DigestOfKey(crypto: Crypto, key: PrivateKey): (kid: Result<string>)
    ensures kid.Fail? <==> crypto.marshalPkix(key.publicKey).Fail?
    ensures kid.Fail? ==> kid.error == DerError(crypto.marshalPkix(key.publicKey).error)
    ensures kid.Ok? ==> |kid.value| == 43 && Base64Url.IsUrlString(kid.value)
    ensures kid.Ok? ==> Base64Url.Decode(kid.value) == Some(crypto.sha256(crypto.marshalPkix(key.publicKey).value))
    ensures kid.Ok? ==> kid.value == Base64Url.Encode(crypto.sha256(crypto.marshalPkix(key.publicKey).value))
  {
    match crypto.marshalPkix(key.publicKey)
    case Fail(e) => Fail(DerError(e))
    case Ok(der) =>
      var digest := crypto.sha256(der);
      Base64Url.DecodeEncode(digest);
      Ok(Base64Url.Encode(digest))
  }

  /** Two keys get the same identifier exactly when their DER forms hash alike. */
  lemma KeyIdIdentifiesDigest(crypto: Crypto, k1: PrivateKey, k2: PrivateKey)
    requires DigestOfKey(crypto, k1).Ok? && DigestOfKey(crypto, k2).Ok?
    ensures DigestOfKey(crypto, k1).value == DigestOfKey(crypto, k2).value
        <==> crypto.sha256(crypto.marshalPkix(k1.publicKey).value) == crypto.sha256(crypto.marshalPkix(k2.publicKey).value)
  {
    Base64Url.EncodeInjective(crypto.sha256(crypto.marshalPkix(k1.publicKey).value),
                              crypto.sha256(crypto.marshalPkix(k2.publicKey).value));
  }

  /** A JSON Web Key as go-jose's JSONWebKey carries it. */
  datatype Jwk = Jwk(key: PublicKey, keyId: string, algorithm: string, use: string)

  datatype KeySet = KeySet(keys: seq<Jwk>)

  /** GenerateKeysFile: one signature key, identified by the digest of its
      public key; the algorithm is the zero value of jose.SignatureAlgorithm. */
  function GenerateKeysFile(crypto: Crypto, key: PrivateKey): (r: Result<KeySet>)
    ensures r.Fail? <==> DigestOfKey(crypto, key).Fail?
    ensures r.Fail? ==> r.error == DigestOfKey(crypto, key).error
    ensures r.Ok? ==>
      && |r.value.keys| == 1
      && r.value.keys[0].use == "sig"
      && r.value.keys[0].algorithm == ""
      && r.value.keys[0].key == key.publicKey
      && r.value.keys[0].keyId == DigestOfKey(crypto, key).value
  {
    var alg := "";
    var kid :- DigestOfKey(crypto, key);
    Ok(KeySet([Jwk(key.publicKey, kid, alg, "sig")]))
  }

  /** The key set never depends on the private exponent: only the public half is published. */
  lemma KeySetPublicOnly(crypto: Crypto, k1: PrivateKey, k2: PrivateKey)
    requires k1.publicKey == k2.publicKey
    ensures GenerateKeysFile(crypto, k1) == GenerateKeysFile(crypto, k2)
  {
  }
}

=== FILE: strings.dfy ===
/** The four functions of Go's `strings` package that the matching and
    partition logic relies on, with the meaning Go documents for them. */
module GoStrings {

  /** strings.HasPrefix */
  predicate HasPrefix(s: string, prefix: string) {
    |prefix| <= |s| && s[..|prefix|] == prefix
  }

  /** strings.HasSuffix */
  predicate HasSuffix(s: string, suffix: string) {
    |suffix| <= |s| && s[|s| - |suffix|..] == suffix
  }

  /** strings.TrimPrefix: removes one leading occurrence of prefix, if present. */
  function TrimPrefix(s: string, prefix: string): (r: string)
    ensures HasPrefix(s, prefix) ==> prefix + r == s
    ensures !HasPrefix(s, prefix) ==> r == s
  {
    if HasPrefix(s, prefix) then s[|prefix|..] else s
  }

  /** strings.TrimSuffix: removes one trailing occurrence of suffix, if present. */
  function TrimSuffix(s: string, suffix: string): (r: string)
    ensures HasSuffix(s, suffix) ==> r + suffix == s
    ensures !HasSuffix(s, suffix) ==> r == s
  {
    if HasSuffix(s, suffix) then s[..|s| - |suffix|] else s
  }

  lemma SuffixOfConcat(t: string, x: string)
    ensures HasSuffix(t + x, x)
  {
    assert (t + x)[|t|..] == x;
  }
}
